=== FILE: README.md ===
# GPU monitor — a Dafny model

The repository holds two copies of a GPU monitor. Each sends a start email, then
polls the GPUs. A GPU counts as free when its used memory is strictly below a
threshold. Once enough GPUs are free, the monitor exports their ids as
`CUDA_VISIBLE_DEVICES`, announces them by email, runs a bash script and mails
the outcome.

- `src/gpu_monitor.py` is the `src/` copy. It has a test mode, recovers from failed GPU queries, gives the script a one-hour timeout and handles Ctrl-C.
- `gpu_monitor.py` is the top-level copy. It has a `once` flag, and its `test` flag only prints. No failure is caught.

The model is a pure state machine. A finite sequence of poll results (`Snapshot(gpus)`, `QueryError`, `Interrupt`) is folded into a trace of effects (`Email`, `SetCudaDevices`, `RunScript`, `Sleep`), together with:

- how many polls were consumed;
- how the session ended (`Completed`, `StoppedByUser`, `Crashed(fault)`, or the inputs ran out).

The script's outcome is an input (`Exited(code, stdout, stderr)`, `TimedOut`, `LaunchError(reason)`).
`RunScript` records the call to `subprocess.run`, that is, an attempt to start the script. It is recorded for every outcome, including `LaunchError`. In the `src/` copy, `LaunchError` stands for any exception other than the timeout that escapes `subprocess.run` (`src/gpu_monitor.py:70-71`, caught at line 102). That covers a child that never starts, and also one whose output fails to decode under `text=True` after it ran. "Launch" in the table below means this attempt.

The top-level `monitor` takes the execution hook `func` as a parameter (`gpu_monitor.py:48`, called at line 76). The model fixes the hook to that module's own `func`, which is the one `main` passes (`gpu_monitor.py:167`).

To compare the two copies, `Effects.Actions` keeps only the non-email events of a trace: what a session does to the machine. `Effects.ActionsAppend` says this projection distributes over concatenation. Both are helpers for the comparison; no source line computes them. So are `Divergence.ActionsOfLaunch`, which projects an export, email, launch, email sequence to its export and launch, and `Effects.LaunchShape`, which counts the single launch in such a fixed-length sequence.

The message texts are plain definitions that the mail and export rows below rest on: `Text.Join` is `sep.join` (`src/gpu_monitor.py:53`, `gpu_monitor.py:89`); `Monitor.GpuInfo` is `format_gpu_info` (`src/gpu_monitor.py:41-45`); `Monitor.StartedBody` is the start email's body (`src/gpu_monitor.py:130-133`); `TopLevelMonitor.GpuInfo` and `TopLevelMonitor.MegabytesRepr` are the top-level copy's GPU lines, which print memory as floats such as `500.0` (`gpu_monitor.py:91-93`).

The trigger rule is `Monitor.Triggers` and `Monitor.Waits` (`free_count >= free_gpu_num` at `src/gpu_monitor.py:151`), and `TopLevelMonitor.Triggers` and `TopLevelMonitor.Waits` (`gpu_monitor.py:75`). A poll triggers when it is not an interrupt and has at least the required number of free GPUs. A poll waits when it is not an interrupt and does not trigger. In the top-level copy, only a snapshot can trigger or wait, because a failed query there is fatal. The first-trigger and skip-wait lemmas below take these predicates as their preconditions.

The mail texts are definitions as well:

- `Monitor.VerdictSubject`: the four completion subjects (`src/gpu_monitor.py:79`, `88`, `98`, `107`).
- `Monitor.AvailableSubject` and `Monitor.AvailableBody`: the availability email (`src/gpu_monitor.py:61-62`).
- `Monitor.StoppedSubject` and `Monitor.StoppedBody`: the stop notice (`src/gpu_monitor.py:169-170`).
- `Gpus.IdListRepr`: Python's `repr` of the id list in the availability body (`src/gpu_monitor.py:62`, `gpu_monitor.py:100`).
- `TopLevelMonitor.StartedSubject` and `TopLevelMonitor.StartedBody`: the top-level start email (`gpu_monitor.py:60-61`).
- `TopLevelMonitor.AvailableSubject` and `TopLevelMonitor.AvailableBody`: its availability email (`gpu_monitor.py:99-100`).
- `TopLevelMonitor.SuccessSubject` and `TopLevelMonitor.FailedSubject`: its report subjects (`gpu_monitor.py:119`, `128`).

Mail delivery is modelled as a set of failing send attempts, numbered from 0 in the order the monitor makes them. A failing attempt raises, as both `send_email` functions do.

Files:

- `text.dfy` (`Text`):
  - Python's `str()` of integers and `sep.join`;
  - the splitting and decimal parsing a reader of those strings performs.
- `gpus.dfy` (`Gpus`):
  - the free-GPU filter and its characterisation;
  - the `CUDA_VISIBLE_DEVICES` string and its reader.
- `effects.dfy` (`Effects`): inputs, events, exits, and trace predicates shared by both copies.
- `monitor.dfy` (`Monitor`): `src/gpu_monitor.py`.
- `top_level_monitor.dfy` (`TopLevelMonitor`): the top-level `gpu_monitor.py`.
- `divergence.dfy` (`Divergence`): where the two copies part ways on the same inputs, and where they agree.

## Model

| member | source | states |
|---|---|---|
| Text.NatToString | src/gpu_monitor.py:53 | `str(n)` of a non-negative id is a non-empty digit string with no leading zero except for 0 itself; it has one digit exactly when n < 10. With `Text.ParseNatToString` this fixes the text exactly |
| Text.IntToString | src/gpu_monitor.py:130-133 | `str(i)` is non-empty and starts with '-' exactly for negatives |
| Text.IntToStringRoundTrip | src/gpu_monitor.py:130-133 | the digits of `str(i)` read back as the absolute value of `i` |
| Text.ParseNatToString | src/gpu_monitor.py:53 | the decimal text of an id reads back as that id |
| Text.SplitJoin | src/gpu_monitor.py:53 | splitting a comma join on ',' gives back the parts, provided no part contains ',' |
| Gpus.FreeGpus | src/gpu_monitor.py:35 | the filtered list holds only GPUs under the threshold, is an order-preserving subsequence of the snapshot, and contains every free GPU of the snapshot |
| Gpus.FreeGpusMaximal | src/gpu_monitor.py:35 | every order-preserving selection of free GPUs is a subsequence of the filter's result |
| Gpus.FreeGpusUnique | gpu_monitor.py:68 | the filter's result is the only order-preserving selection of free GPUs that is that long: exactly the free GPUs, in input order |
| Gpus.FreeGpusAppend | gpu_monitor.py:68 | filtering a concatenation is concatenating the filtered halves, so relative order is kept |
| Gpus.Ids | src/gpu_monitor.py:50 | the id list has one id per GPU, in the same order |
| Gpus.Numerals | src/gpu_monitor.py:53 | each rendered id is a numeral that reads back as that id |
| Gpus.ParseNumeralsOfNumerals | src/gpu_monitor.py:53 | reading every rendered id yields the id list |
| Gpus.DeviceList | src/gpu_monitor.py:53 | the exported value reads back as exactly the free ids in filter order, and is empty exactly when no id is exported |
| Monitor.Classify | src/gpu_monitor.py:74-107 | return code 0 earns success, any other code failure, the timeout a timeout and any other exception an error; each outcome earns exactly one verdict |
| Monitor.ReportMail | src/gpu_monitor.py:74-109 | the subject names the outcome's verdict; the body ends with stdout on exit 0; on a non-zero exit it starts with the return code followed by "." and ends with stderr; it ends with the exception text on a launch error |
| Monitor.VerdictSubjectsDistinct | src/gpu_monitor.py:79-107 | the four completion subjects are pairwise distinct and differ from the availability subject |
| Monitor.ExecuteScript | src/gpu_monitor.py:48-110 | the device list is exported first and reads back as the free ids. No exception escapes exactly when the availability email is delivered and either the report is delivered or, after a normal exit, the error report that replaces it is. Any escaping fault is a mail failure |
| Monitor.ExecuteScriptLaunchOrder | src/gpu_monitor.py:53-72 | the script launch is attempted exactly once (even if the child cannot start), at position 2 after the export and the availability email, and only when that email is delivered; only emails follow the launch |
| Monitor.ExecutionReportsOneVerdict | src/gpu_monitor.py:68-110 | with the availability email and report delivered, the last email is the outcome's report and exactly one completion email is sent, the one for its verdict; a timeout sends no success or failure email |
| Monitor.UndeliveredReportBecomesError | src/gpu_monitor.py:74-110 | when a success or failure report cannot be delivered, the exception handler sends the error email instead and the run completes |
| Monitor.CompletionCounts | src/gpu_monitor.py:57-110 | an execution trace holds exactly one completion email, the one its report carries |
| Monitor.GetFreeGpus | src/gpu_monitor.py:31-38 | a snapshot yields exactly the filter's result, so every returned GPU is under the threshold; a failed query returns no GPU |
| Monitor.Loop | src/gpu_monitor.py:138-171 | the loop consumes at least one and at most all polls; it never completes in test mode; the only faults that can escape it are a mail failure and, for a negative interval, the error `time.sleep` raises |
| Monitor.Monitor | src/gpu_monitor.py:113-171 | an undelivered start email ends the session before any poll; otherwise that email comes first. Test mode never completes. The only faults that escape are mail failures and, for a negative interval, the error `time.sleep` raises |
| Monitor.LoopLaunchesLast | src/gpu_monitor.py:151-161 | after the launch only emails follow, and in test mode nothing is exported or launched |
| Monitor.ExecutesAtMostOnce | src/gpu_monitor.py:147-161 | a session launches the script at most once and only sends email afterwards; in test mode it never exports or launches |
| Monitor.ScrubQueryErrors | src/gpu_monitor.py:36-38 | the scrubbed polls have the same length; every failed query becomes a snapshot with no GPU (the `return []`), and every other poll is kept unchanged |
| Monitor.LoopScrubbed | src/gpu_monitor.py:36-38 | the loop behaves identically when every failed query is replaced by an empty snapshot |
| Monitor.QueryErrorActsAsEmptySnapshot | src/gpu_monitor.py:36-38 | a failed GPU query is indistinguishable from a snapshot without GPUs: the session continues |
| Monitor.QueryErrorTriggersWhenNoneRequired | src/gpu_monitor.py:151 | with no GPU required, a failed query triggers execution at the first poll with an empty device list |
| Monitor.LoopSkipsWaits | src/gpu_monitor.py:140-161 | polls with too few free GPUs (any non-interrupt poll in test mode) contribute exactly one pause each |
| Monitor.LoopAtTrigger | src/gpu_monitor.py:151-157 | outside test mode a triggering poll runs `execute_script` on its free GPUs and ends the loop after that one poll |
| Monitor.LoopFirstTrigger | src/gpu_monitor.py:140-161 | outside test mode, after waiting polls, the loop pauses once per waiting poll, runs `execute_script` on the first triggering poll's free GPUs and ends there |
| Monitor.FirstTriggerExecutes | src/gpu_monitor.py:151-157 | the first triggering poll runs `execute_script` on exactly its free GPUs after one pause per earlier poll, and no further poll follows |
| Monitor.FirstTriggerLaunchesOnce | src/gpu_monitor.py:151-157 | that first trigger launches the script exactly once when the availability email is delivered, and never otherwise |
| Monitor.InterruptStopsWithOneEmail | src/gpu_monitor.py:163-171 | Ctrl-C ends the session gracefully with one "Monitor Stopped" email after the earlier pauses, and nothing else |
| Monitor.TestModeKeepsPolling | src/gpu_monitor.py:147-161 | in test mode, with a non-negative interval, every poll is consumed and only pauses, whatever the snapshots |
| Monitor.NegativeIntervalCrashesAtFirstPause | src/gpu_monitor.py:161-163 | with a negative interval, the first poll that would pause ends the session with the uncaught `time.sleep` error, after only the start email |
| Monitor.ExitStatus | src/gpu_monitor.py:224-225 | the process status as written: 1 exactly when an exception escapes, and otherwise 0, because `main`'s return value is discarded |
| Monitor.IntendedExitStatus | src/gpu_monitor.py:208-211 | the status `main` evidently intends: 1 exactly for a missing script or an escaped exception, 0 exactly for a completed or user-stopped session, none while the modelled inputs run out |
| Monitor.Entry | src/gpu_monitor.py:206-221 | `main` skips monitoring exactly outside test mode with a missing script; that path exits 0 as written where 1 is intended. Otherwise the session is `monitor`'s, which opens with the start email when it is delivered and consumes at most the given polls |
| Monitor.MissingScriptExitsZero | src/gpu_monitor.py:208-225 | as written, a missing script ends the process with status 0, like a successful session |
| Monitor.MissingScriptFlagged | src/gpu_monitor.py:208-225 | with the intended status, the status is 1 exactly when the script is missing outside test mode or an exception escapes, and 0 exactly after a completed or user-stopped session |
| TopLevelMonitor.Func | gpu_monitor.py:85-130 | the device list is exported first and reads back as the free ids. No exception escapes exactly when the availability email and report are delivered and the script starts; a launch error escapes as such and mail failures escape. After a normal exit, exit 0 mails stdout under the success subject and any other code mails stderr under the failed subject |
| TopLevelMonitor.FuncLaunchOrder | gpu_monitor.py:89-111 | the script launch is attempted exactly once (even if the child cannot start), after the export and the availability email, and only when that email is delivered; only emails follow, all with this copy's subjects |
| TopLevelMonitor.Loop | gpu_monitor.py:64-82 | the loop consumes at least one and at most all polls; without `once` it never completes; it never ends as a graceful user stop |
| TopLevelMonitor.Monitor | gpu_monitor.py:45-82 | an undelivered start email ends the session before any poll; otherwise that email comes first; without `once` it never completes; there is no graceful stop |
| TopLevelMonitor.LoopShape | gpu_monitor.py:75-82 | with `once`, only emails follow a launch; every email has one of this copy's four subjects |
| TopLevelMonitor.OnceExecutesAtMostOnce | gpu_monitor.py:75-79 | with `once`, a session launches the script at most once and only sends email afterwards; whatever the flags, no timeout, error or stop email exists |
| TopLevelMonitor.LoopIgnoresTestFlag | gpu_monitor.py:72-76 | the loop is the same with and without `test` |
| TopLevelMonitor.TestFlagIgnored | gpu_monitor.py:72-76 | the `test` flag only prints: every session is the same with and without it |
| TopLevelMonitor.LoopSkipsWaits | gpu_monitor.py:75-82 | snapshots with too few free GPUs contribute exactly one pause each (for a non-negative interval) |
| TopLevelMonitor.OnceStopsAfterFirstCall | gpu_monitor.py:75-79 | with `once`, the first triggering snapshot calls `func` on exactly its free GPUs after one pause per earlier poll, and the loop stops there |
| TopLevelMonitor.LoopFirstTrigger | gpu_monitor.py:64-82 | with `once`, after waiting snapshots, the loop pauses once per waiting snapshot, calls `func` on the first triggering snapshot's free GPUs and stops |
| TopLevelMonitor.LoopAtTrigger | gpu_monitor.py:75-79 | with `once`, a triggering snapshot calls `func` on its free GPUs and ends the loop after that one poll |
| TopLevelMonitor.QueryErrorOrInterruptIsFatal | gpu_monitor.py:64-68 | a failed GPU query or a Ctrl-C escapes at that poll, with no execution and no stop email |
| TopLevelMonitor.LoopRepeats | gpu_monitor.py:75-82 | without `once`, with a non-negative interval, on snapshots only, with every email delivered and every script outcome a normal exit: every poll is consumed, `func` launches once per triggering snapshot, and each launch is followed by a pause |
| TopLevelMonitor.RepeatsOnEveryTrigger | gpu_monitor.py:75-82 | without `once`, with a non-negative interval, on snapshots only, with every email delivered and every script outcome a normal exit, the session never stops by itself: one launch per triggering snapshot, each followed by a pause |
| TopLevelMonitor.NegativeIntervalCrashesAtFirstPause | gpu_monitor.py:75-82 | with a negative interval, the first pause ends the session with the uncaught `time.sleep` error; without `once` that is the pause right after the first call of `func` |
| TopLevelMonitor.Entry | gpu_monitor.py:164-173 | `main` leaves `once` at its default, so the script is launched at most once and nothing but email follows; there is no graceful stop |
| Divergence.TestModeOnlyDisablesSrcCopy | gpu_monitor.py:72-79 | in test mode the `src/` copy never exports or launches, while the top-level copy launches once on a first snapshot with enough free GPUs |
| Divergence.QueryErrorOnlyFatalToTopLevelCopy | gpu_monitor.py:66 | after a failed query the `src/` copy's trace is the start email, one pause, then the rest of its loop, and it polls again (with a negative interval it crashes at that pause instead); the top-level copy ends at once with a query failure |
| Divergence.SrcCopyPausesAfterQueryError | src/gpu_monitor.py:33-161 | when at least one GPU is required, the `src/` loop answers a failed query with one pause and continues with the next poll, or crashes at that pause for a negative interval |
| Divergence.TopLevelSubjectNotSrcOnly | gpu_monitor.py:60-128 | none of the top-level copy's subjects is a timeout, error or stop subject of the `src/` copy |
| Divergence.TopLevelCopyHasNoTimeoutOrStopNotice | gpu_monitor.py:106-130 | the top-level copy never sends a timeout report, an error report or a stop notice |
| Divergence.LoopsAgreeOnActions | gpu_monitor.py:64-82 | on snapshots only, with every mail delivered and a script that starts, both loops export, pause and launch identically, consume the same polls and end the same way |
| Divergence.SameActionsInOrdinarySession | gpu_monitor.py:45-82 | the same agreement holds for whole single-shot sessions outside test mode: only the emails differ |

## Left out

- SMTP and MIME construction and delivery. `send_email` becomes an attempt that is delivered unless its index is in the failure set. A failure raises out of the sender in both copies (`src/gpu_monitor.py:26-28`, `gpu_monitor.py:41-42`).
- GPUtil hardware querying. It becomes the poll sequence, and a raised query error is the `QueryError` result.
- `subprocess.run`, the 3600-second timer and the script path lookup. The outcome of the run is an input.
- `time.sleep`. It becomes a `Sleep` event, or the uncaught error for a negative interval.
- argparse. `os.path.exists` becomes the boolean `scriptExists`.
- `print` output.
- Global state:
  - the mutation of the process-wide environment is a traced `SetCudaDevices` value;
  - the mail credentials play no part.
- Fractional memory values. Memory is in whole megabytes, so the float formatting of the GPU lines is shown for whole numbers only.
- The text of a mail-delivery exception, which appears in the `src/` copy's error email. It is the constant `MailErrorText`.
- Ctrl-C arrives only at poll points, which is where the sleep is. Ctrl-C during an email or a script run is not modelled.
- `PollsExhausted` and `RunsExhausted` end a session whose finite input ran out while the program would have kept going.
- The exit status of a process ended by an escaping exception is taken to be 1.
- Monitor.Loop: states no launch order in its own contract. Launch order, at most one launch and test mode never launching are stated by `Monitor.LoopLaunchesLast` and `Monitor.ExecutesAtMostOnce`.
- TopLevelMonitor.Func: treats the script's output as text. `stdout.decode()` and `stderr.decode()` (`gpu_monitor.py:120`, `129`) raise on output that is not valid UTF-8, after the script has run. The model takes the outcome already decoded, so its "no fault" condition ignores that case.
- TopLevelMonitor.Loop: states neither launch order nor email subjects in its own contract. Those are stated by `TopLevelMonitor.LoopShape` and `TopLevelMonitor.OnceExecutesAtMostOnce`.

## Behaviour worth knowing

These points follow from the code and are stated by the lemmas named.

- The top-level copy still runs the script when `--test` is given. Its help text for the flag is only "Run in test mode" (`gpu_monitor.py:160`). The `src/` copy's help text says "Run in test mode (no script execution)" (`src/gpu_monitor.py:201`), and that copy indeed never runs the script. Lemmas: `TopLevelMonitor.TestFlagIgnored` and `Divergence.TestModeOnlyDisablesSrcCopy`.
- The top-level copy catches nothing. A failed GPU query, a script that cannot be started and Ctrl-C all end the process. Lemmas: `TopLevelMonitor.QueryErrorOrInterruptIsFatal` and `TopLevelMonitor.Func`.
- In the `src/` copy, a timeout report, an error report or a stop notice that cannot be delivered raises out of the monitor. Lemmas: `Monitor.ExecuteScript` and `Monitor.Loop`.
- In both copies, a negative `--monitor_interval` makes the first pause raise. Lemmas: the two `NegativeIntervalCrashesAtFirstPause`.

## Findings

| source | as written | input that shows it | evidently intended | confidence | as-written member | corrected member |
|---|---|---|---|---|---|---|
| src/gpu_monitor.py:208-225 | `main` returns 1 for a missing script, but the module calls `main()` without `sys.exit`, so the process exits with status 0 | no `--test`, and `BASH_SCRIPT_PATH` naming no file | exit status 1, as the error message and `return 1` indicate | high, from Python's semantics; not executed | Monitor.MissingScriptExitsZero | Monitor.MissingScriptFlagged |

=== FILE: divergence.dfy ===
/**
 How the two copies of the monitor differ when given the same inputs.  The `src/`
 copy (`Monitor`) honours test mode, survives failed GPU queries and knows about
 timeouts; the top-level one (`TopLevelMonitor`) does none of these, but for a normal
 single-shot session both act on the machine in the same way.
 */
module Divergence {
  import opened Text
  import opened Gpus
  import opened Effects
  import M = Monitor
  import L = TopLevelMonitor

  /** The top-level copy's settings for the same command line, with the given `once` flag. */
  function ToTopLevel(s: M.Settings, once: bool): L.Settings {
    L.Settings(s.freeGpuNum, s.gpuMemThresh, s.monitorInterval, s.hostName, once, s.testMode)
  }

  /**
   In test mode the `src/` copy never exports a device list nor launches the
   script, while the top-level copy, given a first snapshot with enough free GPUs,
   launches it exactly once.
   */
  lemma TestModeOnlyDisablesSrcCopy(
    s: M.Settings, gpus: seq<Gpu>, post: seq<PollResult>, run: UntimedOutcome, failures: set<nat>)
    requires s.testMode
    requires Delivered(0, failures) && Delivered(1, failures)
    requires |FreeGpus(gpus, s.gpuMemThresh)| >= s.freeGpuNum
    ensures NeverRuns(M.Monitor(s, [Snapshot(gpus)] + post, run, failures).trace)
    ensures CountRuns(L.Monitor(ToTopLevel(s, true), [Snapshot(gpus)] + post, [run], failures).trace) == 1
  {
    M.ExecutesAtMostOnce(s, [Snapshot(gpus)] + post, run, failures);
    var t := ToTopLevel(s, true);
    var free := FreeGpus(gpus, s.gpuMemThresh);
    L.FuncLaunchOrder(free, s.hostName, run, failures, 1);
    var x := L.Func(free, s.hostName, run, failures, 1);
    var start := Email(L.StartedSubject(s.hostName), L.StartedBody(s.hostName));
    assert ([Snapshot(gpus)] + post)[0] == Snapshot(gpus);
    assert L.Loop(t, [Snapshot(gpus)] + post, [run], failures, 1).trace == x.trace;
    CountRunsAppend([start], x.trace);
  }

  /**
   A failed GPU query is survived by the `src/` copy, which treats it as a snapshot
   without GPUs, pauses and polls again (unless the interval is negative, which
   `time.sleep` rejects), and is fatal to the top-level copy.
   */
  lemma QueryErrorOnlyFatalToTopLevelCopy(
    s: M.Settings, rest: seq<PollResult>, run: UntimedOutcome, failures: set<nat>, once: bool)
    requires s.freeGpuNum > 0 && Delivered(0, failures)
    ensures var r := M.Monitor(s, [QueryError] + rest, run, failures);
      var tail := M.Loop(s, rest, run, failures, 1);
      s.monitorInterval >= 0 ==>
        && r.trace == [Email(M.StartedSubject(s.hostName), M.StartedBody(s))] + ([Sleep(s.monitorInterval)] + tail.trace)
        && r.polled == 1 + tail.polled
        && (rest != [] ==> r.polled >= 2)
        && r.exit == tail.exit
    ensures s.monitorInterval < 0 ==>
      M.Monitor(s, [QueryError] + rest, run, failures)
      == Run([Email(M.StartedSubject(s.hostName), M.StartedBody(s))], 1, Crashed(NegativeInterval))
    ensures var r := L.Monitor(ToTopLevel(s, once), [QueryError] + rest, [run], failures);
      r.exit == Crashed(QueryFailure) && r.polled == 1
  {
    SrcCopyPausesAfterQueryError(s, rest, run, failures);
    assert ([QueryError] + rest)[0] == QueryError;
  }

  lemma SrcCopyPausesAfterQueryError(s: M.Settings, rest: seq<PollResult>, run: UntimedOutcome, failures: set<nat>)
    requires s.freeGpuNum > 0
    ensures var l := M.Loop(s, [QueryError] + rest, run, failures, 1);
      var tail := M.Loop(s, rest, run, failures, 1);
      s.monitorInterval >= 0 ==> l == Run([Sleep(s.monitorInterval)] + tail.trace, tail.polled + 1, tail.exit)
    ensures s.monitorInterval < 0 ==> M.Loop(s, [QueryError] + rest, run, failures, 1) == Run([], 1, Crashed(NegativeInterval))
  {
    var polls := [QueryError] + rest;
    assert polls[0] == QueryError;
    assert polls[1..] == rest;
  }

  /** The subjects only the `src/` copy sends: timeout and error reports, and the stop notice. */
  predicate SrcOnlySubject(subject: string, host: string) {
    subject == M.VerdictSubject(M.Timeout, host) || subject == M.VerdictSubject(M.Error, host)
    || subject == M.StoppedSubject(host)
  }

  lemma TopLevelSubjectNotSrcOnly(subject: string, host: string)
    requires L.IsTopLevelSubject(subject, host)
    ensures !SrcOnlySubject(subject, host)
  {
    var timeout := M.VerdictSubject(M.Timeout, host);
    var error := M.VerdictSubject(M.Error, host);
    var stopped := M.StoppedSubject(host);
    if subject == L.StartedSubject(host) {
      assert subject[0] != timeout[0];
      assert subject[0] != error[0];
      assert subject[10] != stopped[10];
    } else if subject == L.AvailableSubject(host) {
      assert subject[0] != timeout[0] && subject[0] != error[0] && subject[0] != stopped[0];
    } else {
      assert subject[10] != timeout[10] && subject[10] != error[10];
      assert subject[0] != stopped[0];
    }
  }

  /**
   The top-level copy never reports a timeout or an execution error and never
   announces that it was stopped: those emails exist only in the `src/` copy.
   */
  lemma TopLevelCopyHasNoTimeoutOrStopNotice(s: L.Settings, polls: seq<PollResult>, runs: seq<UntimedOutcome>, failures: set<nat>)
    ensures var t := L.Monitor(s, polls, runs, failures).trace;
      forall i :: 0 <= i < |t| && t[i].Email? ==> !SrcOnlySubject(t[i].subject, s.hostName)
  {
    L.OnceExecutesAtMostOnce(s, polls, runs, failures);
    var t := L.Monitor(s, polls, runs, failures).trace;
    forall i | 0 <= i < |t| && t[i].Email? ensures !SrcOnlySubject(t[i].subject, s.hostName) {
      TopLevelSubjectNotSrcOnly(t[i].subject, s.hostName);
    }
  }

  /** An execution that mails before and after the launch acts only by exporting and launching. */
  lemma ActionsOfLaunch(env: Event, avail: Event, report: Event)
    requires !env.Email? && avail.Email? && report.Email?
    ensures Actions([env, avail, RunScript, report]) == [env, RunScript]
  {
    assert [report][1..] == [];
    assert Actions([report]) == [];
    assert [RunScript, report][1..] == [report];
    assert Actions([RunScript, report]) == [RunScript];
    assert [avail, RunScript, report][1..] == [RunScript, report];
    assert Actions([avail, RunScript, report]) == [RunScript];
    assert [env, avail, RunScript, report][1..] == [avail, RunScript, report];
  }

  lemma {:induction false} LoopsAgreeOnActions(
    s: M.Settings, polls: seq<PollResult>, run: UntimedOutcome, sentM: nat, sentL: nat)
    requires !s.testMode && run.Exited?
    requires forall i :: 0 <= i < |polls| ==> polls[i].Snapshot?
    ensures var m := M.Loop(s, polls, run, {}, sentM);
      var l := L.Loop(ToTopLevel(s, true), polls, [run], {}, sentL);
      Actions(m.trace) == Actions(l.trace) && m.polled == l.polled && m.exit == l.exit
    decreases |polls|
  {
    if polls != [] {
      var free := FreeGpus(polls[0].gpus, s.gpuMemThresh);
      var sleep := Sleep(s.monitorInterval);
      if |free| >= s.freeGpuNum {
        var env := SetCudaDevices(DeviceList(Ids(free)));
        var mx := M.ExecuteScript(free, s.hostName, run, {}, sentM);
        var lx := L.Func(free, s.hostName, run, {}, sentL);
        ActionsOfLaunch(env, Email(M.AvailableSubject(s.hostName), M.AvailableBody(free)), M.ReportMail(run, s.hostName));
        ActionsOfLaunch(env, Email(L.AvailableSubject(s.hostName), L.AvailableBody(free)), lx.trace[3]);
        assert lx.trace == [env, Email(L.AvailableSubject(s.hostName), L.AvailableBody(free)), RunScript, lx.trace[3]];
        assert mx.trace == [env, Email(M.AvailableSubject(s.hostName), M.AvailableBody(free)), RunScript,
                            M.ReportMail(run, s.hostName)];
        assert M.Loop(s, polls, run, {}, sentM) == Run(mx.trace, 1, Completed);
        assert L.Loop(ToTopLevel(s, true), polls, [run], {}, sentL) == Run(lx.trace, 1, Completed);
      } else {
        LoopsAgreeOnActions(s, polls[1..], run, sentM, sentL);
        var m := M.Loop(s, polls[1..], run, {}, sentM);
        var l := L.Loop(ToTopLevel(s, true), polls[1..], [run], {}, sentL);
        ActionsAppend([sleep], m.trace);
        ActionsAppend([sleep], l.trace);
      }
    }
  }

  /**
   Outside test mode, with every query answered, every email delivered and a
   script that starts, a single-shot session of either copy exports the same
   device list, launches the script at the same poll, pauses the same number of
   times, consumes the same polls and ends the same way; only the emails differ.
   */
  lemma SameActionsInOrdinarySession(s: M.Settings, polls: seq<PollResult>, run: UntimedOutcome)
    requires !s.testMode && run.Exited?
    requires forall i :: 0 <= i < |polls| ==> polls[i].Snapshot?
    ensures var m := M.Monitor(s, polls, run, {});
      var l := L.Monitor(ToTopLevel(s, true), polls, [run], {});
      Actions(m.trace) == Actions(l.trace) && m.polled == l.polled && m.exit == l.exit
  {
    LoopsAgreeOnActions(s, polls, run, 1, 1);
    var m := M.Loop(s, polls, run, {}, 1);
    var l := L.Loop(ToTopLevel(s, true), polls, [run], {}, 1);
    ActionsAppend([Email(M.StartedSubject(s.hostName), M.StartedBody(s))], m.trace);
    ActionsAppend([Email(L.StartedSubject(s.hostName), L.StartedBody(s.hostName))], l.trace);
  }
}

=== FILE: effects.dfy ===
/**
 The outside world of a monitor, as inputs and outputs.

 Inputs: the results of successive GPU polls, the outcome of running the user's
 script, and which mail-send attempts fail.  Outputs: a trace of the effects the
 monitor performs, in order, plus how the run ended.
 */
module Effects {
  import opened Text
  import opened Gpus

  /** What one iteration's GPU query produced, or a Ctrl-C arriving at that point. */
  datatype PollResult = Snapshot(gpus: seq<Gpu>) | QueryError | Interrupt

  /** What running `bash <script>` produced. */
  datatype ExecOutcome =
    | Exited(code: int, stdout: string, stderr: string)
    | TimedOut
    | LaunchError(reason: string)

  /** Outcomes possible when no timeout is passed to the child process. */
  type UntimedOutcome = o: ExecOutcome | !o.TimedOut? witness LaunchError("")

  /**
   An effect on the world: a delivered email, the exported device list, a pause,
   or `RunScript`, the call that starts `bash <script>` (an attempt: it is recorded
   even when the child process cannot be started).
   */
  datatype Event =
    | Email(subject: string, body: string)
    | SetCudaDevices(devices: string)
    | RunScript
    | Sleep(seconds: int)

  /**
   Why a run ended with an exception escaping the monitor.  `NegativeInterval` is the
   error `time.sleep` raises when asked to pause for a negative number of seconds.
   */
  datatype Fault = MailFailure | QueryFailure | LaunchFailure | UncaughtInterrupt | NegativeInterval

  /**
   How a run ends.  `PollsExhausted` and `RunsExhausted` mean the finite inputs ran
   out while the monitor would have kept going.
   */
  datatype Exit = Completed | StoppedByUser | Crashed(fault: Fault) | PollsExhausted | RunsExhausted

  /** A whole monitoring session: its effects, how many polls it consumed, how it ended. */
  datatype Run = Run(trace: seq<Event>, polled: nat, exit: Exit)

  /** The effects of one script execution, the mail attempts used so far, and an escaping fault. */
  datatype Execution = Execution(trace: seq<Event>, sent: nat, fault: Option<Fault>)

  /** Mail-send attempts are numbered from 0 in the order the monitor makes them. */
  predicate Delivered(attempt: nat, failures: set<nat>) {
    attempt !in failures
  }

  /** Once the script has been launched, only emails follow. */
  predicate NothingAfterRun(trace: seq<Event>) {
    forall i, j :: 0 <= i < j < |trace| && trace[i].RunScript? ==> trace[j].Email?
  }

  predicate AtMostOneRun(trace: seq<Event>) {
    forall i, j :: 0 <= i < |trace| && 0 <= j < |trace| && trace[i].RunScript? && trace[j].RunScript? ==> i == j
  }

  /** Neither the device list is exported nor the script launched. */
  predicate NeverRuns(trace: seq<Event>) {
    forall i :: 0 <= i < |trace| ==> !trace[i].RunScript? && !trace[i].SetCudaDevices?
  }

  lemma NothingAfterRunPrepend(e: Event, trace: seq<Event>)
    ensures !e.RunScript? && NothingAfterRun(trace) ==> NothingAfterRun([e] + trace)
  {
    if !e.RunScript? && NothingAfterRun(trace) {
      var t := [e] + trace;
      forall i, j | 0 <= i < j < |t| && t[i].RunScript? ensures t[j].Email? {
        assert t[i] == trace[i - 1] && t[j] == trace[j - 1];
      }
    }
  }

  lemma NothingAfterRunAtMostOne(trace: seq<Event>)
    ensures NothingAfterRun(trace) ==> AtMostOneRun(trace)
  {
  }

  lemma NeverRunsAppend(a: seq<Event>, b: seq<Event>)
    ensures NeverRuns(a) && NeverRuns(b) ==> NeverRuns(a + b)
  {
    if NeverRuns(a) && NeverRuns(b) {
      forall i | 0 <= i < |a + b| ensures !(a + b)[i].RunScript? && !(a + b)[i].SetCudaDevices? {
        if i >= |a| {
          assert (a + b)[i] == b[i - |a|];
        }
      }
    }
  }

  /** `n` consecutive pauses of the polling interval. */
  function Sleeps(n: nat, seconds: int): (s: seq<Event>)
    ensures |s| == n && forall i :: 0 <= i < n ==> s[i] == Sleep(seconds)
  {
    seq(n, i => Sleep(seconds))
  }

  /** The trace without its emails: what the monitor did to the machine. */
  function Actions(trace: seq<Event>): (acts: seq<Event>)
    ensures forall i :: 0 <= i < |acts| ==> !acts[i].Email?
    ensures |acts| <= |trace|
    decreases |trace|
  {
    if trace == [] then []
    else if trace[0].Email? then Actions(trace[1..])
    else [trace[0]] + Actions(trace[1..])
  }

  lemma {:induction false} ActionsAppend(a: seq<Event>, b: seq<Event>)
    ensures Actions(a + b) == Actions(a) + Actions(b)
    decreases |a|
  {
    if a == [] {
      assert a + b == b;
    } else {
      assert (a + b)[1..] == a[1..] + b;
      ActionsAppend(a[1..], b);
    }
  }

  /** How many script launches a trace holds. */
  function CountRuns(trace: seq<Event>): nat
    decreases |trace|
  {
    if trace == [] then 0
    else (if trace[0].RunScript? then 1 else 0) + CountRuns(trace[1..])
  }

  lemma {:induction false} CountRunsAppend(a: seq<Event>, b: seq<Event>)
    ensures CountRuns(a + b) == CountRuns(a) + CountRuns(b)
    decreases |a|
  {
    if a == [] {
      assert a + b == b;
    } else {
      assert (a + b)[1..] == a[1..] + b;
      CountRunsAppend(a[1..], b);
    }
  }

  /** A trace whose only launch is at index `k` holds one launch; one without any holds none. */
  lemma {:induction false} CountRunsPointwise(trace: seq<Event>, k: int)
    requires forall i :: 0 <= i < |trace| ==> (trace[i].RunScript? <==> i == k)
    ensures CountRuns(trace) == (if 0 <= k < |trace| then 1 else 0)
    decreases |trace|
  {
    if trace != [] {
      CountRunsPointwise(trace[1..], k - 1);
    }
  }

  /** An execution trace: an export, an email, the launch, then at most one email. */
  lemma LaunchShape(trace: seq<Event>)
    requires 3 <= |trace| <= 4
    requires !trace[0].RunScript? && !trace[1].RunScript? && trace[2].RunScript?
    requires |trace| == 4 ==> trace[3].Email?
    ensures forall i :: 0 <= i < |trace| ==> (trace[i].RunScript? <==> i == 2)
    ensures CountRuns(trace) == 1
    ensures NothingAfterRun(trace)
  {
    CountRunsPointwise(trace, 2);
  }

  /** How many delivered emails in a trace carry the given subject. */
  function CountSubject(trace: seq<Event>, subject: string): nat
    decreases |trace|
  {
    if trace == [] then 0
    else (if trace[0].Email? && trace[0].subject == subject then 1 else 0) + CountSubject(trace[1..], subject)
  }

  lemma {:induction false} CountSubjectAbsent(trace: seq<Event>, subject: string)
    requires forall i :: 0 <= i < |trace| ==> !(trace[i].Email? && trace[i].subject == subject)
    ensures CountSubject(trace, subject) == 0
    decreases |trace|
  {
    if trace != [] {
      CountSubjectAbsent(trace[1..], subject);
    }
  }

  lemma {:induction false} CountSubjectConcat(a: seq<Event>, b: seq<Event>, subject: string)
    ensures CountSubject(a + b, subject) == CountSubject(a, subject) + CountSubject(b, subject)
    decreases |a|
  {
    if a == [] {
      assert a + b == b;
    } else {
      assert (a + b)[1..] == a[1..] + b;
      CountSubjectConcat(a[1..], b, subject);
    }
  }
}

=== FILE: gpus.dfy ===
/**
 GPU snapshots and the free-GPU filter both scripts apply
 (`[gpu for gpu in gpus if gpu.memoryUsed < gpu_mem_thresh]`), together with the
 `CUDA_VISIBLE_DEVICES` value built from the surviving ids and the reader a child
 process uses to recover those ids.
 */
module Gpus {
  import opened Text

  /** One entry of a hardware query; memory in whole megabytes. */
  datatype Gpu = Gpu(id: nat, memoryUsed: nat, memoryTotal: nat)

  predicate IsFree(g: Gpu, thresh: int) {
    g.memoryUsed < thresh
  }

  predicate AllFree(gpus: seq<Gpu>, thresh: int) {
    forall i :: 0 <= i < |gpus| ==> IsFree(gpus[i], thresh)
  }

  /**
   `s` can be obtained from `t` by deleting elements, keeping the rest in order.
   Greedy matching of `s[0]` against the earliest equal element of `t` is complete
   for this relation.
   */
  predicate IsSubsequence<T(==)>(s: seq<T>, t: seq<T>)
    decreases |t|
  {
    if s == [] then true
    else if t == [] then false
    else if s[0] == t[0] then IsSubsequence(s[1..], t[1..])
    else IsSubsequence(s, t[1..])
  }

  /** The free-GPU filter: the GPUs whose used memory is strictly below the threshold. */
  function FreeGpus(gpus: seq<Gpu>, thresh: int): (free: seq<Gpu>)
    ensures AllFree(free, thresh)
    ensures IsSubsequence(free, gpus)
    ensures forall i :: 0 <= i < |gpus| && IsFree(gpus[i], thresh) ==> gpus[i] in free
    decreases |gpus|
  {
    if gpus == [] then []
    else
      var rest := FreeGpus(gpus[1..], thresh);
      if IsFree(gpus[0], thresh) then
        assert ([gpus[0]] + rest)[1..] == rest;
        [gpus[0]] + rest
      else
        rest
  }

  lemma {:induction false} SubsequenceLength<T>(s: seq<T>, t: seq<T>)
    requires IsSubsequence(s, t)
    ensures |s| <= |t|
    decreases |t|
  {
    if s != [] {
      if s[0] == t[0] {
        SubsequenceLength(s[1..], t[1..]);
      } else {
        SubsequenceLength(s, t[1..]);
      }
    }
  }

  /** A subsequence as long as the whole sequence is the sequence itself. */
  lemma {:induction false} SubsequenceOfEqualLength<T>(s: seq<T>, t: seq<T>)
    requires IsSubsequence(s, t) && |s| >= |t|
    ensures s == t
    decreases |t|
  {
    if s != [] {
      if s[0] == t[0] {
        SubsequenceOfEqualLength(s[1..], t[1..]);
        assert s == [s[0]] + s[1..];
        assert t == [t[0]] + t[1..];
      } else {
        SubsequenceLength(s, t[1..]);
      }
    }
  }

  /** Every order-preserving selection of free GPUs is a selection from the filter's result. */
  lemma {:induction false} FreeGpusMaximal(s: seq<Gpu>, gpus: seq<Gpu>, thresh: int)
    requires IsSubsequence(s, gpus) && AllFree(s, thresh)
    ensures IsSubsequence(s, FreeGpus(gpus, thresh))
    decreases |gpus|
  {
    if s != [] {
      var free := FreeGpus(gpus, thresh);
      var rest := FreeGpus(gpus[1..], thresh);
      if s[0] == gpus[0] {
        assert AllFree(s[1..], thresh) by {
          forall i | 0 <= i < |s[1..]| ensures IsFree(s[1..][i], thresh) {
            assert s[1..][i] == s[i + 1];
          }
        }
        FreeGpusMaximal(s[1..], gpus[1..], thresh);
        assert IsFree(s[0], thresh);
        assert free == [gpus[0]] + rest;
        assert free[1..] == rest;
      } else {
        FreeGpusMaximal(s, gpus[1..], thresh);
        if IsFree(gpus[0], thresh) {
          assert free == [gpus[0]] + rest;
          assert free[1..] == rest;
        }
      }
    }
  }

  /**
   The filter's result is the only order-preserving selection of free GPUs that is
   at least as long: it keeps every free GPU, in input order, and nothing else.
   */
  lemma FreeGpusUnique(s: seq<Gpu>, gpus: seq<Gpu>, thresh: int)
    requires IsSubsequence(s, gpus) && AllFree(s, thresh)
    requires |s| >= |FreeGpus(gpus, thresh)|
    ensures s == FreeGpus(gpus, thresh)
  {
    FreeGpusMaximal(s, gpus, thresh);
    SubsequenceOfEqualLength(s, FreeGpus(gpus, thresh));
  }

  /** Filtering two halves of a snapshot separately and concatenating keeps the order. */
  lemma {:induction false} FreeGpusAppend(a: seq<Gpu>, b: seq<Gpu>, thresh: int)
    ensures FreeGpus(a + b, thresh) == FreeGpus(a, thresh) + FreeGpus(b, thresh)
    decreases |a|
  {
    if a != [] {
      assert (a + b)[1..] == a[1..] + b;
      FreeGpusAppend(a[1..], b, thresh);
    } else {
      assert a + b == b;
    }
  }

  /** `[gpu.id for gpu in gpus]`. */
  function Ids(gpus: seq<Gpu>): (ids: seq<nat>)
    ensures |ids| == |gpus|
    ensures forall i :: 0 <= i < |gpus| ==> ids[i] == gpus[i].id
  {
    seq(|gpus|, i requires 0 <= i < |gpus| => gpus[i].id)
  }

  /** `map(str, ids)`. */
  function Numerals(ids: seq<nat>): (parts: seq<string>)
    ensures |parts| == |ids|
    ensures forall i :: 0 <= i < |ids| ==> IsNumeral(parts[i]) && ParseNumeral(parts[i]) == Some(ids[i])
  {
    forall i | 0 <= i < |ids| {
      ParseNatToString(ids[i]);
    }
    seq(|ids|, i requires 0 <= i < |ids| => NatToString(ids[i]))
  }

  /** Reads every numeral of a list; fails if any piece is not a numeral. */
  function ParseNumerals(parts: seq<string>): (r: Option<seq<nat>>)
    ensures r.Some? ==> |r.value| == |parts|
    decreases |parts|
  {
    if parts == [] then Some([])
    else
      match (ParseNumeral(parts[0]), ParseNumerals(parts[1..]))
      case (Some(n), Some(ns)) => Some([n] + ns)
      case _ => None
  }

  lemma {:induction false} ParseNumeralsOfNumerals(ids: seq<nat>)
    ensures ParseNumerals(Numerals(ids)) == Some(ids)
    decreases |ids|
  {
    if ids != [] {
      assert Numerals(ids)[1..] == Numerals(ids[1..]);
      ParseNumeralsOfNumerals(ids[1..]);
      assert ids == [ids[0]] + ids[1..];
    }
  }

  /**
   How a consumer of `CUDA_VISIBLE_DEVICES` reads it: the empty string names no
   device, otherwise the comma-separated pieces must all be decimal ids.
   */
  function ParseDeviceList(s: string): Option<seq<nat>> {
    if s == "" then Some([]) else ParseNumerals(Split(s, ','))
  }

  /**
   `",".join(map(str, ids))`: the value exported as `CUDA_VISIBLE_DEVICES`.
   Reading it back yields exactly the ids, in the same order.
   */
  function DeviceList(ids: seq<nat>): (s: string)
    ensures ParseDeviceList(s) == Some(ids)
    ensures s == "" <==> ids == []
  {
    var parts := Numerals(ids);
    var s := Join(parts, ",");
    if ids == [] then
      s
    else
      JoinNonEmpty(parts, ",");
      assert forall k :: 0 <= k < |parts| ==> ',' !in parts[k] by {
        forall k | 0 <= k < |parts| ensures ',' !in parts[k] {
          assert IsNumeral(parts[k]);
        }
      }
      SplitJoin(parts, ',');
      ParseNumeralsOfNumerals(ids);
      s
  }

  /** Python's `repr` of a list of ints, as it appears in the availability emails. */
  function IdListRepr(ids: seq<nat>): string {
    "[" + Join(Numerals(ids), ", ") + "]"
  }
}

=== FILE: monitor.dfy ===
/**
 The monitor of `src/gpu_monitor.py`: poll the GPUs, filter by memory, and on the
 first poll with enough free GPUs export their ids, announce them, run the script
 once and report its outcome.  Query failures count as "no free GPU", test mode
 never runs anything and keeps polling, and Ctrl-C ends the loop with a
 "Monitor Stopped" email.
 */
module Monitor {
  import opened Text
  import opened Gpus
  import opened Effects

  /** The command-line settings `monitor` receives (the mail credentials play no part here). */
  datatype Settings = Settings(
    freeGpuNum: int,
    gpuMemThresh: int,
    monitorInterval: int,
    hostName: string,
    testMode: bool)

  /** Which of the four completion notifications an execution earns. */
  datatype Verdict = Success | Failure | Timeout | Error

  // ---------------------------------------------------------------- messages

  function StartedSubject(host: string): string { "Monitor Started @ " + host }

  function StartedBody(s: Settings): string {
    "GPU monitoring started on " + s.hostName
    + "\nRequired free GPUs: " + IntToString(s.freeGpuNum)
    + "\nMemory threshold: " + IntToString(s.gpuMemThresh)
    + " MB\nCheck interval: " + IntToString(s.monitorInterval) + " seconds"
  }

  function StoppedSubject(host: string): string { "Monitor Stopped @ " + host }

  const StoppedBody := "GPU monitoring was stopped by user"

  function AvailableSubject(host: string): string { "GPUs Available on " + host }

  /** One line per free GPU: `GPU <id>: <used>/<total> MB`. */
  function GpuInfo(free: seq<Gpu>): string {
    Join(seq(|free|, i requires 0 <= i < |free| =>
      "GPU " + NatToString(free[i].id) + ": " + NatToString(free[i].memoryUsed)
      + "/" + NatToString(free[i].memoryTotal) + " MB"), "\n")
  }

  function AvailableBody(free: seq<Gpu>): string {
    "Free GPUs: " + IdListRepr(Ids(free)) + "\n\n" + GpuInfo(free)
  }

  function VerdictSubject(v: Verdict, host: string): string {
    match v
    case Success => "Execution Successful on " + host
    case Failure => "Execution Failed on " + host
    case Timeout => "Execution Timeout on " + host
    case Error => "Execution Error on " + host
  }

  /** The text of a mail-delivery exception is not modelled. */
  const MailErrorText := "mail delivery failed"

  function ErrorMail(reason: string, host: string): Event {
    Email(VerdictSubject(Error, host), "Script execution error: " + reason)
  }

  /** The verdict the script's outcome earns when its report can be delivered. */
  function Classify(run: ExecOutcome): (v: Verdict)
    ensures v == Success <==> run.Exited? && run.code == 0
    ensures v == Failure <==> run.Exited? && run.code != 0
    ensures v == Timeout <==> run.TimedOut?
    ensures v == Error <==> run.LaunchError?
  {
    match run
    case Exited(code, _, _) => if code == 0 then Success else Failure
    case TimedOut => Timeout
    case LaunchError(_) => Error
  }

  /** The notification sent for an outcome. */
  function ReportMail(run: ExecOutcome, host: string): (e: Event)
    ensures e.Email? && e.subject == VerdictSubject(Classify(run), host)
    ensures run.Exited? && run.code == 0 ==> EndsWith(e.body, run.stdout)
    ensures run.Exited? && run.code != 0 ==>
      StartsWith(e.body, "Script failed with return code " + IntToString(run.code) + ".") && EndsWith(e.body, run.stderr)
    ensures run.LaunchError? ==> EndsWith(e.body, run.reason)
  {
    match run
    case Exited(code, stdout, stderr) =>
      if code == 0 then
        Email(VerdictSubject(Success, host), "Script completed successfully.\n\nOutput:\n" + stdout)
      else
        Email(VerdictSubject(Failure, host),
          "Script failed with return code " + IntToString(code) + ".\n\nError:\n" + stderr)
    case TimedOut =>
      Email(VerdictSubject(Timeout, host), "Script execution timed out after 1 hour")
    case LaunchError(reason) =>
      ErrorMail(reason, host)
  }

  predicate StartsWith(s: string, prefix: string) {
    |prefix| <= |s| && s[..|prefix|] == prefix
  }

  predicate EndsWith(s: string, suffix: string) {
    |suffix| <= |s| && s[|s| - |suffix|..] == suffix
  }

  /** The subjects of different verdicts differ, and none is the availability subject. */
  lemma VerdictSubjectsDistinct(host: string)
    ensures forall v, w :: VerdictSubject(v, host) == VerdictSubject(w, host) ==> v == w
    ensures forall v :: VerdictSubject(v, host) != AvailableSubject(host)
  {
    forall v, w | VerdictSubject(v, host) == VerdictSubject(w, host) ensures v == w {
      assert VerdictSubject(v, host)[10] == VerdictSubject(w, host)[10];
    }
    forall v ensures VerdictSubject(v, host) != AvailableSubject(host) {
      assert VerdictSubject(v, host)[0] == 'E';
      assert AvailableSubject(host)[0] == 'G';
    }
  }

  // -------------------------------------------------------------- execution

  /**
   `execute_script`: export the device list, announce the free GPUs, run the script
   and report the outcome.  `sent` numbers the next mail attempt.  The announcement
   sits outside the `try`, so its failure escapes; a failed success or failure
   report is caught and reported as an execution error; a failed timeout or error
   report escapes.
   */
  function ExecuteScript(free: seq<Gpu>, host: string, run: ExecOutcome, failures: set<nat>, sent: nat): (x: Execution)
    ensures |x.trace| >= 1 && x.trace[0].SetCudaDevices?
    ensures ParseDeviceList(x.trace[0].devices) == Some(Ids(free))
    ensures x.fault.None? <==>
      Delivered(sent, failures) && (Delivered(sent + 1, failures) || (run.Exited? && Delivered(sent + 2, failures)))
    ensures x.fault.Some? ==> x.fault.value == MailFailure
    ensures x.sent > sent
  {
    var env := SetCudaDevices(DeviceList(Ids(free)));
    if !Delivered(sent, failures) then
      Execution([env], sent + 1, Some(MailFailure))
    else
      var prefix := [env, Email(AvailableSubject(host), AvailableBody(free)), RunScript];
      if Delivered(sent + 1, failures) then
        Execution(prefix + [ReportMail(run, host)], sent + 2, None)
      else if run.Exited? then
        if Delivered(sent + 2, failures) then
          Execution(prefix + [ErrorMail(MailErrorText, host)], sent + 3, None)
        else
          Execution(prefix, sent + 3, Some(MailFailure))
      else
        Execution(prefix, sent + 2, Some(MailFailure))
  }

  /**
   The script is launched exactly when the availability email goes out, and only
   after the device list is exported and that email sent; afterwards only emails
   follow.
   */
  lemma ExecuteScriptLaunchOrder(free: seq<Gpu>, host: string, run: ExecOutcome, failures: set<nat>, sent: nat)
    ensures var x := ExecuteScript(free, host, run, failures, sent);
      && (forall i :: 0 <= i < |x.trace| ==> (x.trace[i].RunScript? <==> Delivered(sent, failures) && i == 2))
      && CountRuns(x.trace) == (if Delivered(sent, failures) then 1 else 0)
      && NothingAfterRun(x.trace)
      && (Delivered(sent, failures) ==>
            |x.trace| >= 3 && x.trace[1] == Email(AvailableSubject(host), AvailableBody(free)))
  {
    var x := ExecuteScript(free, host, run, failures, sent);
    if Delivered(sent, failures) {
      LaunchShape(x.trace);
    } else {
      CountRunsPointwise(x.trace, -1);
    }
  }

  /**
   Once the script has run and its report can be delivered, exactly one completion
   notification is sent, the one its outcome earns; in particular a timeout sends
   no success or failure notification.
   */
  lemma ExecutionReportsOneVerdict(free: seq<Gpu>, host: string, run: ExecOutcome, failures: set<nat>, sent: nat)
    requires Delivered(sent, failures) && Delivered(sent + 1, failures)
    ensures var x := ExecuteScript(free, host, run, failures, sent);
      && x.trace[|x.trace| - 1] == ReportMail(run, host)
      && forall v :: CountSubject(x.trace, VerdictSubject(v, host)) == (if v == Classify(run) then 1 else 0)
  {
    var x := ExecuteScript(free, host, run, failures, sent);
    assert x.trace == x.trace[..3] + [ReportMail(run, host)];
    CompletionCounts(x.trace[..3], ReportMail(run, host), host);
  }

  /** When a success or failure report cannot be delivered, the error notification takes its place. */
  lemma UndeliveredReportBecomesError(free: seq<Gpu>, host: string, run: ExecOutcome, failures: set<nat>, sent: nat)
    requires Delivered(sent, failures) && !Delivered(sent + 1, failures)
    requires run.Exited? && Delivered(sent + 2, failures)
    ensures var x := ExecuteScript(free, host, run, failures, sent);
      && x.fault.None?
      && forall v :: CountSubject(x.trace, VerdictSubject(v, host)) == (if v == Error then 1 else 0)
  {
    var x := ExecuteScript(free, host, run, failures, sent);
    assert x.trace == x.trace[..3] + [ErrorMail(MailErrorText, host)];
    CompletionCounts(x.trace[..3], ErrorMail(MailErrorText, host), host);
  }

  /** Counting completion subjects in an export, an availability email, a launch and one report. */
  lemma CompletionCounts(prefix: seq<Event>, report: Event, host: string)
    requires |prefix| == 3 && !prefix[0].Email? && !prefix[2].Email?
    requires prefix[1].Email? && prefix[1].subject == AvailableSubject(host)
    requires report.Email?
    ensures forall v :: CountSubject(prefix + [report], VerdictSubject(v, host))
                        == (if report.subject == VerdictSubject(v, host) then 1 else 0)
  {
    VerdictSubjectsDistinct(host);
    forall v ensures CountSubject(prefix + [report], VerdictSubject(v, host))
                     == (if report.subject == VerdictSubject(v, host) then 1 else 0) {
      CountSubjectAbsent(prefix, VerdictSubject(v, host));
      CountSubjectConcat(prefix, [report], VerdictSubject(v, host));
    }
  }

  // -------------------------------------------------------------------- loop

  /** `get_free_gpus`: the filtered snapshot, or no GPU at all when the query failed. */
  function GetFreeGpus(poll: PollResult, thresh: int): (free: seq<Gpu>)
    requires !poll.Interrupt?
    ensures AllFree(free, thresh)
    ensures poll.QueryError? ==> free == []
    ensures poll.Snapshot? ==> free == FreeGpus(poll.gpus, thresh)
  {
    match poll
    case Snapshot(gpus) => FreeGpus(gpus, thresh)
    case QueryError => []
  }

  /** The iteration handling this poll result would go on to `execute_script` (outside test mode). */
  predicate Triggers(s: Settings, poll: PollResult) {
    !poll.Interrupt? && |GetFreeGpus(poll, s.gpuMemThresh)| >= s.freeGpuNum
  }

  /** The iteration handling this poll result only sleeps. */
  predicate Waits(s: Settings, poll: PollResult) {
    !poll.Interrupt? && !Triggers(s, poll)
  }

  /** The `while True` loop of `monitor`, from the poll at hand onwards. */
  function Loop(s: Settings, polls: seq<PollResult>, run: ExecOutcome, failures: set<nat>, sent: nat): (r: Run)
    ensures polls != [] ==> 1 <= r.polled
    ensures r.polled <= |polls|
    ensures s.testMode ==> r.exit != Completed
    ensures r.exit.Crashed? ==>
      r.exit.fault == MailFailure || (r.exit.fault == NegativeInterval && s.monitorInterval < 0)
    ensures r.exit != RunsExhausted
    decreases |polls|
  {
    if polls == [] then
      Run([], 0, PollsExhausted)
    else if polls[0].Interrupt? then
      if Delivered(sent, failures) then
        Run([Email(StoppedSubject(s.hostName), StoppedBody)], 1, StoppedByUser)
      else
        Run([], 1, Crashed(MailFailure))
    else
      var free := GetFreeGpus(polls[0], s.gpuMemThresh);
      if |free| >= s.freeGpuNum && !s.testMode then
        var x := ExecuteScript(free, s.hostName, run, failures, sent);
        Run(x.trace, 1, if x.fault.Some? then Crashed(x.fault.value) else Completed)
      else if s.monitorInterval < 0 then
        Run([], 1, Crashed(NegativeInterval))
      else
        var rest := Loop(s, polls[1..], run, failures, sent);
        Run([Sleep(s.monitorInterval)] + rest.trace, rest.polled + 1, rest.exit)
  }

  /** `monitor`: the start notification (attempt 0, outside any handler), then the loop. */
  function Monitor(s: Settings, polls: seq<PollResult>, run: ExecOutcome, failures: set<nat>): (r: Run)
    ensures !Delivered(0, failures) ==> r == Run([], 0, Crashed(MailFailure))
    ensures Delivered(0, failures) ==> |r.trace| >= 1 && r.trace[0] == Email(StartedSubject(s.hostName), StartedBody(s))
    ensures r.polled <= |polls|
    ensures s.testMode ==> r.exit != Completed
    ensures r.exit.Crashed? ==>
      r.exit.fault == MailFailure || (r.exit.fault == NegativeInterval && s.monitorInterval < 0)
  {
    if !Delivered(0, failures) then
      Run([], 0, Crashed(MailFailure))
    else
      var rest := Loop(s, polls, run, failures, 1);
      Run([Email(StartedSubject(s.hostName), StartedBody(s))] + rest.trace, rest.polled, rest.exit)
  }

  // ------------------------------------------------------------- properties

  lemma {:induction false} LoopLaunchesLast(s: Settings, polls: seq<PollResult>, run: ExecOutcome, failures: set<nat>, sent: nat)
    ensures NothingAfterRun(Loop(s, polls, run, failures, sent).trace)
    ensures s.testMode ==> NeverRuns(Loop(s, polls, run, failures, sent).trace)
    decreases |polls|
  {
    if polls != [] && !polls[0].Interrupt? {
      var free := GetFreeGpus(polls[0], s.gpuMemThresh);
      if |free| >= s.freeGpuNum && !s.testMode {
        ExecuteScriptLaunchOrder(free, s.hostName, run, failures, sent);
      } else {
        var rest := Loop(s, polls[1..], run, failures, sent);
        LoopLaunchesLast(s, polls[1..], run, failures, sent);
        NothingAfterRunPrepend(Sleep(s.monitorInterval), rest.trace);
        NeverRunsAppend([Sleep(s.monitorInterval)], rest.trace);
      }
    }
  }

  /**
   Whatever the polls, a session launches the script at most once and does nothing
   but send emails afterwards: no further poll, pause or launch.  In test mode it
   neither exports a device list nor launches anything.
   */
  lemma ExecutesAtMostOnce(s: Settings, polls: seq<PollResult>, run: ExecOutcome, failures: set<nat>)
    ensures var r := Monitor(s, polls, run, failures);
      NothingAfterRun(r.trace) && AtMostOneRun(r.trace)
    ensures s.testMode ==> NeverRuns(Monitor(s, polls, run, failures).trace)
  {
    if Delivered(0, failures) {
      var start := Email(StartedSubject(s.hostName), StartedBody(s));
      var rest := Loop(s, polls, run, failures, 1);
      LoopLaunchesLast(s, polls, run, failures, 1);
      NothingAfterRunPrepend(start, rest.trace);
      NothingAfterRunAtMostOne([start] + rest.trace);
      NeverRunsAppend([start], rest.trace);
    }
  }

  /** Replaces every failed query by an empty snapshot. */
  function ScrubQueryErrors(polls: seq<PollResult>): (clean: seq<PollResult>)
    ensures |clean| == |polls|
    ensures forall i :: 0 <= i < |polls| ==> !clean[i].QueryError? && (clean[i].Interrupt? <==> polls[i].Interrupt?)
    ensures forall i :: 0 <= i < |polls| && polls[i].QueryError? ==> clean[i] == Snapshot([])
    ensures forall i :: 0 <= i < |polls| && !polls[i].QueryError? ==> clean[i] == polls[i]
  {
    seq(|polls|, i requires 0 <= i < |polls| => if polls[i].QueryError? then Snapshot([]) else polls[i])
  }

  lemma {:induction false} LoopScrubbed(s: Settings, polls: seq<PollResult>, run: ExecOutcome, failures: set<nat>, sent: nat)
    ensures Loop(s, polls, run, failures, sent) == Loop(s, ScrubQueryErrors(polls), run, failures, sent)
    decreases |polls|
  {
    if polls != [] {
      assert ScrubQueryErrors(polls)[1..] == ScrubQueryErrors(polls[1..]);
      LoopScrubbed(s, polls[1..], run, failures, sent);
    }
  }

  /** A failed GPU query behaves exactly like a snapshot with no GPU: the loop carries on. */
  lemma QueryErrorActsAsEmptySnapshot(s: Settings, polls: seq<PollResult>, run: ExecOutcome, failures: set<nat>)
    ensures Monitor(s, polls, run, failures) == Monitor(s, ScrubQueryErrors(polls), run, failures)
  {
    LoopScrubbed(s, polls, run, failures, 1);
  }

  /** With no GPU required, even a failed query triggers execution, with an empty device list. */
  lemma QueryErrorTriggersWhenNoneRequired(s: Settings, rest: seq<PollResult>, run: ExecOutcome, failures: set<nat>)
    requires s.freeGpuNum <= 0 && !s.testMode && Delivered(0, failures)
    ensures var r := Monitor(s, [QueryError] + rest, run, failures);
      r.polled == 1 && |r.trace| >= 2 && r.trace[1] == SetCudaDevices("")
  {
    assert ([QueryError] + rest)[0] == QueryError;
  }

  /** Polls that only wait contribute one pause each and nothing else. */
  lemma {:induction false} LoopSkipsWaits(
    s: Settings, pre: seq<PollResult>, rest: seq<PollResult>, run: ExecOutcome, failures: set<nat>, sent: nat)
    requires forall i :: 0 <= i < |pre| ==> Waits(s, pre[i]) || (s.testMode && !pre[i].Interrupt?)
    requires pre == [] || s.monitorInterval >= 0
    ensures var tail := Loop(s, rest, run, failures, sent);
      Loop(s, pre + rest, run, failures, sent)
      == Run(Sleeps(|pre|, s.monitorInterval) + tail.trace, |pre| + tail.polled, tail.exit)
    decreases |pre|
  {
    if pre == [] {
      assert pre + rest == rest;
      assert Sleeps(0, s.monitorInterval) + Loop(s, rest, run, failures, sent).trace
          == Loop(s, rest, run, failures, sent).trace;
    } else {
      var polls := pre + rest;
      assert polls[0] == pre[0];
      assert polls[1..] == pre[1..] + rest;
      LoopSkipsWaits(s, pre[1..], rest, run, failures, sent);
      var tail := Loop(s, rest, run, failures, sent);
      assert [Sleep(s.monitorInterval)] + (Sleeps(|pre| - 1, s.monitorInterval) + tail.trace)
          == Sleeps(|pre|, s.monitorInterval) + tail.trace;
    }
  }

  lemma LoopAtTrigger(s: Settings, poll: PollResult, post: seq<PollResult>, run: ExecOutcome, failures: set<nat>, sent: nat)
    requires !s.testMode && Triggers(s, poll)
    ensures var x := ExecuteScript(GetFreeGpus(poll, s.gpuMemThresh), s.hostName, run, failures, sent);
      Loop(s, [poll] + post, run, failures, sent)
      == Run(x.trace, 1, if x.fault.Some? then Crashed(x.fault.value) else Completed)
  {
    assert ([poll] + post)[0] == poll;
  }

  /**
   Outside test mode the first poll with enough free GPUs runs `execute_script` on
   exactly that poll's free GPUs, after one pause per earlier poll; the loop then
   ends, consuming no further poll.
   */
  lemma FirstTriggerExecutes(
    s: Settings, pre: seq<PollResult>, poll: PollResult, post: seq<PollResult>,
    run: ExecOutcome, failures: set<nat>)
    requires !s.testMode && Delivered(0, failures)
    requires forall i :: 0 <= i < |pre| ==> Waits(s, pre[i])
    requires pre == [] || s.monitorInterval >= 0
    requires Triggers(s, poll)
    ensures var r := Monitor(s, pre + [poll] + post, run, failures);
      var x := ExecuteScript(GetFreeGpus(poll, s.gpuMemThresh), s.hostName, run, failures, 1);
      && r.polled == |pre| + 1
      && r.trace == [Email(StartedSubject(s.hostName), StartedBody(s))] + (Sleeps(|pre|, s.monitorInterval) + x.trace)
      && r.exit == (if x.fault.Some? then Crashed(MailFailure) else Completed)
  {
    LoopFirstTrigger(s, pre, poll, post, run, failures, 1);
  }

  lemma LoopFirstTrigger(
    s: Settings, pre: seq<PollResult>, poll: PollResult, post: seq<PollResult>,
    run: ExecOutcome, failures: set<nat>, sent: nat)
    requires !s.testMode
    requires forall i :: 0 <= i < |pre| ==> Waits(s, pre[i])
    requires pre == [] || s.monitorInterval >= 0
    requires Triggers(s, poll)
    ensures var x := ExecuteScript(GetFreeGpus(poll, s.gpuMemThresh), s.hostName, run, failures, sent);
      Loop(s, pre + [poll] + post, run, failures, sent)
      == Run(Sleeps(|pre|, s.monitorInterval) + x.trace, |pre| + 1, if x.fault.Some? then Crashed(MailFailure) else Completed)
  {
    assert pre + [poll] + post == pre + ([poll] + post);
    LoopSkipsWaits(s, pre, [poll] + post, run, failures, sent);
    LoopAtTrigger(s, poll, post, run, failures, sent);
  }

  /**
   That first triggering poll launches the script exactly once, provided the
   availability email goes out; if it does not, nothing is launched.
   */
  lemma FirstTriggerLaunchesOnce(
    s: Settings, pre: seq<PollResult>, poll: PollResult, post: seq<PollResult>,
    run: ExecOutcome, failures: set<nat>)
    requires !s.testMode && Delivered(0, failures)
    requires forall i :: 0 <= i < |pre| ==> Waits(s, pre[i])
    requires pre == [] || s.monitorInterval >= 0
    requires Triggers(s, poll)
    ensures CountRuns(Monitor(s, pre + [poll] + post, run, failures).trace) == (if Delivered(1, failures) then 1 else 0)
  {
    FirstTriggerExecutes(s, pre, poll, post, run, failures);
    var free := GetFreeGpus(poll, s.gpuMemThresh);
    var x := ExecuteScript(free, s.hostName, run, failures, 1);
    var start := Email(StartedSubject(s.hostName), StartedBody(s));
    var waits := Sleeps(|pre|, s.monitorInterval);
    NoRunsInSleeps(waits);
    ExecuteScriptLaunchOrder(free, s.hostName, run, failures, 1);
    CountRunsAppend(waits, x.trace);
    CountRunsAppend([start], waits + x.trace);
  }

  lemma {:induction false} NoRunsInSleeps(t: seq<Event>)
    requires forall i :: 0 <= i < |t| ==> !t[i].RunScript?
    ensures CountRuns(t) == 0
    decreases |t|
  {
    if t != [] {
      NoRunsInSleeps(t[1..]);
    }
  }

  /**
   Ctrl-C ends the loop gracefully: after the pauses of the earlier polls, a single
   "Monitor Stopped" email is sent and nothing else happens.  In test mode this holds
   even if earlier polls had enough free GPUs.
   */
  lemma InterruptStopsWithOneEmail(
    s: Settings, pre: seq<PollResult>, post: seq<PollResult>, run: ExecOutcome, failures: set<nat>)
    requires Delivered(0, failures) && Delivered(1, failures)
    requires forall i :: 0 <= i < |pre| ==> Waits(s, pre[i]) || (s.testMode && !pre[i].Interrupt?)
    requires pre == [] || s.monitorInterval >= 0
    ensures var r := Monitor(s, pre + [Interrupt] + post, run, failures);
      && r.exit == StoppedByUser
      && r.polled == |pre| + 1
      && r.trace == [Email(StartedSubject(s.hostName), StartedBody(s))] + Sleeps(|pre|, s.monitorInterval)
                    + [Email(StoppedSubject(s.hostName), StoppedBody)]
  {
    assert pre + [Interrupt] + post == pre + ([Interrupt] + post);
    assert ([Interrupt] + post)[0] == Interrupt;
    LoopSkipsWaits(s, pre, [Interrupt] + post, run, failures, 1);
  }

  /**
   Test mode consumes every poll, whatever the snapshots say: each iteration only
   pauses, the script is never run and the device list never exported.
   */
  lemma TestModeKeepsPolling(s: Settings, polls: seq<PollResult>, run: ExecOutcome, failures: set<nat>)
    requires s.testMode && Delivered(0, failures)
    requires forall i :: 0 <= i < |polls| ==> !polls[i].Interrupt?
    requires polls == [] || s.monitorInterval >= 0
    ensures var r := Monitor(s, polls, run, failures);
      && r.polled == |polls|
      && r.exit == PollsExhausted
      && r.trace == [Email(StartedSubject(s.hostName), StartedBody(s))] + Sleeps(|polls|, s.monitorInterval)
  {
    assert polls + [] == polls;
    LoopSkipsWaits(s, polls, [], run, failures, 1);
  }

  /**
   `time.sleep` rejects a negative interval with an error the loop does not catch:
   the first poll that would pause ends the session, with nothing but the start
   email sent.
   */
  lemma NegativeIntervalCrashesAtFirstPause(
    s: Settings, poll: PollResult, post: seq<PollResult>, run: ExecOutcome, failures: set<nat>)
    requires s.monitorInterval < 0 && Delivered(0, failures)
    requires Waits(s, poll) || (s.testMode && !poll.Interrupt?)
    ensures Monitor(s, [poll] + post, run, failures)
         == Run([Email(StartedSubject(s.hostName), StartedBody(s))], 1, Crashed(NegativeInterval))
  {
    assert ([poll] + post)[0] == poll;
  }

  // -------------------------------------------------------------------- main

  /** What `main` does: refuse to start, or monitor. */
  datatype Launch = ScriptNotFound | Monitored(run: Run)

  /**
   The process exit status as the program is written.  The module calls `main()`
   without passing its result to `sys.exit`, so the value `main` returns is
   discarded: the status is 0 unless an exception escapes, which exits with 1.
   `None` when the finite input ran out before the process ended.
   */
  function ExitStatus(l: Launch): (status: Option<int>)
    ensures status == Some(1) <==> l.Monitored? && l.run.exit.Crashed?
    ensures status.None? <==> l.Monitored? && (l.run.exit.PollsExhausted? || l.run.exit.RunsExhausted?)
    ensures status.Some? ==> status.value in {0, 1}
  {
    match l
    case ScriptNotFound => Some(0)
    case Monitored(r) =>
      match r.exit
      case Completed => Some(0)
      case StoppedByUser => Some(0)
      case Crashed(_) => Some(1)
      case PollsExhausted => None
      case RunsExhausted => None
  }

  /**
   The exit status `main` evidently means to give: its `return 1` for a missing
   script reaches the shell, as `sys.exit(main())` would make it.
   */
  function IntendedExitStatus(l: Launch): (status: Option<int>)
    ensures status == Some(1) <==> l.ScriptNotFound? || l.run.exit.Crashed?
    ensures status == Some(0) <==> l.Monitored? && l.run.exit in {Completed, StoppedByUser}
    ensures status.None? <==> l.Monitored? && (l.run.exit.PollsExhausted? || l.run.exit.RunsExhausted?)
  {
    if l.ScriptNotFound? then Some(1) else ExitStatus(l)
  }

  /**
   `main`: outside test mode a missing script ends it before any email or poll;
   otherwise it monitors.
   */
  function Entry(s: Settings, scriptExists: bool, polls: seq<PollResult>, run: ExecOutcome, failures: set<nat>): (l: Launch)
    ensures l.ScriptNotFound? <==> !s.testMode && !scriptExists
    ensures l.ScriptNotFound? ==> ExitStatus(l) == Some(0) && IntendedExitStatus(l) == Some(1)
    ensures l.Monitored? ==> l.run == Monitor(s, polls, run, failures)
    ensures l.Monitored? && Delivered(0, failures) ==>
      |l.run.trace| >= 1 && l.run.trace[0] == Email(StartedSubject(s.hostName), StartedBody(s))
    ensures l.Monitored? ==> l.run.polled <= |polls|
  {
    if !s.testMode && !scriptExists then ScriptNotFound else Monitored(Monitor(s, polls, run, failures))
  }

  /**
   As written, a missing script ends the process with status 0, the same status
   as a session that ran the script or was stopped by the user.
   */
  lemma MissingScriptExitsZero(s: Settings, polls: seq<PollResult>, run: ExecOutcome, failures: set<nat>)
    requires !s.testMode
    ensures ExitStatus(Entry(s, false, polls, run, failures)) == Some(0)
  {
  }

  /**
   With the intended status, a non-zero exit tells the shell exactly that the
   script was missing or that an exception escaped the monitor.
   */
  lemma MissingScriptFlagged(s: Settings, scriptExists: bool, polls: seq<PollResult>, run: ExecOutcome, failures: set<nat>)
    ensures var status := IntendedExitStatus(Entry(s, scriptExists, polls, run, failures));
      status == Some(1) <==> (!s.testMode && !scriptExists) || Monitor(s, polls, run, failures).exit.Crashed?
    ensures var status := IntendedExitStatus(Entry(s, scriptExists, polls, run, failures));
      status == Some(0) <==> (s.testMode || scriptExists) && Monitor(s, polls, run, failures).exit in {Completed, StoppedByUser}
  {
  }
}

=== FILE: text.dfy ===
/**
 Text helpers shared by both monitor scripts: Python's `str()` of an integer,
 `sep.join(parts)`, and the splitting and decimal parsing a consumer of those
 strings performs.  Strings are `seq<char>`; only ASCII digits, '-' and the
 separators ever occur in the rendered parts.
 */
module Text {

  datatype Option<+T> = None | Some(value: T)

  predicate IsDigit(c: char) {
    '0' <= c <= '9'
  }

  /** A non-empty run of decimal digits, as `str()` prints a non-negative int. */
  predicate IsNumeral(s: string) {
    |s| >= 1 && forall i :: 0 <= i < |s| ==> IsDigit(s[i])
  }

  function DigitChar(d: nat): (c: char)
    requires d < 10
    ensures IsDigit(c) && DigitValue(c) == d
  {
    (d + '0' as int) as char
  }

  function DigitValue(c: char): (d: nat)
    requires IsDigit(c)
    ensures d < 10
  {
    c as int - '0' as int
  }

  /** Python's `str(n)` for a non-negative integer. */
  function NatToString(n: nat): (s: string)
    ensures IsNumeral(s)
    ensures n < 10 <==> |s| == 1
    ensures s[0] == '0' ==> n == 0
    decreases n
  {
    if n < 10 then [DigitChar(n)] else NatToString(n / 10) + [DigitChar(n % 10)]
  }

  /** Python's `str(i)` for any integer: a leading '-' exactly for negatives. */
  function IntToString(i: int): (s: string)
    ensures |s| >= 1
    ensures s[0] == '-' <==> i < 0
  {
    if i < 0 then "-" + NatToString(-i) else NatToString(i)
  }

  /** The digits of `str(i)` read back as the magnitude of `i`. */
  lemma IntToStringRoundTrip(i: int)
    ensures i >= 0 ==> ParseNumeral(IntToString(i)) == Some(i)
    ensures i < 0 ==> ParseNumeral(IntToString(i)[1..]) == Some(-i)
  {
    if i < 0 {
      ParseNatToString(-i);
      assert IntToString(i)[1..] == NatToString(-i);
    } else {
      ParseNatToString(i);
    }
  }

  /** The value of a string of decimal digits (most significant first). */
  function ParseDigits(s: string): nat
    requires forall i :: 0 <= i < |s| ==> IsDigit(s[i])
    decreases |s|
  {
    if s == [] then 0 else ParseDigits(s[..|s| - 1]) * 10 + DigitValue(s[|s| - 1])
  }

  /** Reads back a numeral; anything that is not a non-empty digit string is rejected. */
  function ParseNumeral(s: string): (r: Option<nat>)
    ensures r.Some? <==> IsNumeral(s)
  {
    if IsNumeral(s) then Some(ParseDigits(s)) else None
  }

  lemma {:induction false} ParseNatToString(n: nat)
    ensures ParseNumeral(NatToString(n)) == Some(n)
    decreases n
  {
    if n >= 10 {
      var prefix := NatToString(n / 10);
      var s := prefix + [DigitChar(n % 10)];
      assert s[..|s| - 1] == prefix;
      ParseNatToString(n / 10);
      assert ParseDigits(s) == ParseDigits(prefix) * 10 + n % 10;
    } else {
      assert ParseDigits(NatToString(n)) == ParseDigits([]) * 10 + n;
    }
  }

  /** Python's `sep.join(parts)`. */
  function Join(parts: seq<string>, sep: string): string
    decreases |parts|
  {
    if |parts| == 0 then ""
    else if |parts| == 1 then parts[0]
    else parts[0] + sep + Join(parts[1..], sep)
  }

  /**
   Python's `s.split(c)` for a single separator character: the maximal pieces
   between separators, so there is always at least one piece, and "" splits to [""].
   */
  function Split(s: string, c: char): (pieces: seq<string>)
    ensures |pieces| >= 1
    ensures forall k :: 0 <= k < |pieces| ==> c !in pieces[k]
    decreases |s|
  {
    if s == [] then [""]
    else
      var tail := Split(s[1..], c);
      if s[0] == c then [""] + tail
      else [[s[0]] + tail[0]] + tail[1..]
  }

  lemma {:induction false} SplitWithoutSeparator(p: string, c: char)
    requires c !in p
    ensures Split(p, c) == [p]
    decreases |p|
  {
    if p != [] {
      assert c !in p[1..];
      SplitWithoutSeparator(p[1..], c);
      assert [p[0]] + p[1..] == p;
    }
  }

  lemma {:induction false} SplitFirstPiece(p: string, c: char, rest: string)
    requires c !in p
    ensures Split(p + [c] + rest, c) == [p] + Split(rest, c)
    decreases |p|
  {
    var s := p + [c] + rest;
    if p == [] {
      assert s[1..] == rest;
    } else {
      assert s[1..] == p[1..] + [c] + rest;
      assert c !in p[1..];
      SplitFirstPiece(p[1..], c, rest);
      assert [p[0]] + p[1..] == p;
    }
  }

  /** Splitting a join on the same separator returns the parts, provided no part holds it. */
  lemma {:induction false} SplitJoin(parts: seq<string>, c: char)
    requires |parts| >= 1
    requires forall k :: 0 <= k < |parts| ==> c !in parts[k]
    ensures Split(Join(parts, [c]), c) == parts
    decreases |parts|
  {
    if |parts| == 1 {
      SplitWithoutSeparator(parts[0], c);
    } else {
      SplitJoin(parts[1..], c);
      SplitFirstPiece(parts[0], c, Join(parts[1..], [c]));
      assert [parts[0]] + parts[1..] == parts;
    }
  }

  lemma JoinNonEmpty(parts: seq<string>, sep: string)
    requires |parts| >= 1 && |parts[0]| >= 1
    ensures |Join(parts, sep)| >= 1
  {
  }
}

=== FILE: top_level_monitor.dfy ===
/**
 The monitor of the top-level `gpu_monitor.py`, one of the two copies.  Its
 loop calls the execution hook `func` on every poll with enough free GPUs and
 stops after the first call when `once` is set (the default, and what `main`
 passes).  The `test` flag only prints.  Nothing is caught: a failed GPU query, a
 Ctrl-C, a failed email or a script that cannot be launched ends the process.  The
 child process gets no timeout.
 */
module TopLevelMonitor {
  import opened Text
  import opened Gpus
  import opened Effects

  /** The arguments of `monitor` (the mail credentials play no part here). */
  datatype Settings = Settings(
    freeGpuNum: int,
    gpuMemThresh: int,
    monitorInterval: int,
    hostName: string,
    once: bool,
    test: bool)

  // ---------------------------------------------------------------- messages

  function StartedSubject(host: string): string { "Monitor Started @ " + host }

  function StartedBody(host: string): string { "Monitoring started on " + host + "..." }

  function AvailableSubject(host: string): string { "GPU(s) Available on " + host }

  /** Python's `repr` of a whole-megabyte float such as `500.0`. */
  function MegabytesRepr(mb: nat): string { NatToString(mb) + ".0" }

  /** One line per free GPU: `GPU <id>: <used>/<total> MB`, memory printed as floats. */
  function GpuInfo(free: seq<Gpu>): string {
    Join(seq(|free|, i requires 0 <= i < |free| =>
      "GPU " + NatToString(free[i].id) + ": " + MegabytesRepr(free[i].memoryUsed)
      + "/" + MegabytesRepr(free[i].memoryTotal) + " MB"), "\n")
  }

  function AvailableBody(free: seq<Gpu>): string {
    "Free GPU(s): " + IdListRepr(Ids(free)) + "\n\n" + GpuInfo(free)
  }

  function SuccessSubject(host: string): string { "Execution Successful on " + host }

  function FailedSubject(host: string): string { "Execution Failed on " + host }

  /** Every subject this copy ever sends. */
  predicate IsTopLevelSubject(subject: string, host: string) {
    subject == StartedSubject(host) || subject == AvailableSubject(host)
    || subject == SuccessSubject(host) || subject == FailedSubject(host)
  }

  predicate OnlyTopLevelSubjects(trace: seq<Event>, host: string) {
    forall i :: 0 <= i < |trace| && trace[i].Email? ==> IsTopLevelSubject(trace[i].subject, host)
  }

  lemma OnlyTopLevelSubjectsAppend(a: seq<Event>, b: seq<Event>, host: string)
    ensures OnlyTopLevelSubjects(a, host) && OnlyTopLevelSubjects(b, host) ==> OnlyTopLevelSubjects(a + b, host)
  {
    if OnlyTopLevelSubjects(a, host) && OnlyTopLevelSubjects(b, host) {
      forall i | 0 <= i < |a + b| && (a + b)[i].Email? ensures IsTopLevelSubject((a + b)[i].subject, host) {
        if i >= |a| {
          assert (a + b)[i] == b[i - |a|];
        }
      }
    }
  }

  // -------------------------------------------------------------- execution

  /**
   `func`: export the device list, announce the free GPUs, run the script and mail
   its stdout on exit code 0, its stderr otherwise.  Every failure escapes.
   */
  function Func(free: seq<Gpu>, host: string, run: UntimedOutcome, failures: set<nat>, sent: nat): (x: Execution)
    ensures |x.trace| >= 1 && x.trace[0].SetCudaDevices?
    ensures ParseDeviceList(x.trace[0].devices) == Some(Ids(free))
    ensures x.fault.None? <==> Delivered(sent, failures) && run.Exited? && Delivered(sent + 1, failures)
    ensures x.fault.Some? ==>
      x.fault.value == (if Delivered(sent, failures) && run.LaunchError? then LaunchFailure else MailFailure)
    ensures x.fault.None? ==>
      && |x.trace| == 4
      && (run.code == 0 ==> x.trace[3] == Email(SuccessSubject(host), run.stdout))
      && (run.code != 0 ==> x.trace[3] == Email(FailedSubject(host), run.stderr))
    ensures x.sent > sent
  {
    var env := SetCudaDevices(DeviceList(Ids(free)));
    if !Delivered(sent, failures) then
      Execution([env], sent + 1, Some(MailFailure))
    else
      var prefix := [env, Email(AvailableSubject(host), AvailableBody(free)), RunScript];
      if run.LaunchError? then
        Execution(prefix, sent + 1, Some(LaunchFailure))
      else
        var report :=
          if run.code == 0 then Email(SuccessSubject(host), run.stdout)
          else Email(FailedSubject(host), run.stderr);
        if Delivered(sent + 1, failures) then
          Execution(prefix + [report], sent + 2, None)
        else
          Execution(prefix, sent + 2, Some(MailFailure))
  }

  /**
   The script is launched exactly when the availability email goes out, after the
   device list is exported and that email sent; afterwards only emails follow, and
   all of them carry this copy's subjects.
   */
  lemma FuncLaunchOrder(free: seq<Gpu>, host: string, run: UntimedOutcome, failures: set<nat>, sent: nat)
    ensures var x := Func(free, host, run, failures, sent);
      && (forall i :: 0 <= i < |x.trace| ==> (x.trace[i].RunScript? <==> Delivered(sent, failures) && i == 2))
      && CountRuns(x.trace) == (if Delivered(sent, failures) then 1 else 0)
      && NothingAfterRun(x.trace)
      && OnlyTopLevelSubjects(x.trace, host)
      && (Delivered(sent, failures) ==>
            |x.trace| >= 3 && x.trace[1] == Email(AvailableSubject(host), AvailableBody(free)))
  {
    var x := Func(free, host, run, failures, sent);
    if Delivered(sent, failures) {
      LaunchShape(x.trace);
    } else {
      CountRunsPointwise(x.trace, -1);
    }
  }

  // -------------------------------------------------------------------- loop

  /** The iteration handling this poll result calls `func`. */
  predicate Triggers(s: Settings, poll: PollResult) {
    poll.Snapshot? && |FreeGpus(poll.gpus, s.gpuMemThresh)| >= s.freeGpuNum
  }

  /** The iteration handling this poll result only sleeps. */
  predicate Waits(s: Settings, poll: PollResult) {
    poll.Snapshot? && !Triggers(s, poll)
  }

  /** The `while True` loop of `monitor`, from the poll at hand onwards. */
  function Loop(s: Settings, polls: seq<PollResult>, runs: seq<UntimedOutcome>, failures: set<nat>, sent: nat): (r: Run)
    ensures polls != [] ==> 1 <= r.polled
    ensures r.polled <= |polls|
    ensures !s.once ==> r.exit != Completed
    ensures r.exit != StoppedByUser
    ensures r.exit == Crashed(NegativeInterval) ==> s.monitorInterval < 0
    decreases |polls|
  {
    if polls == [] then
      Run([], 0, PollsExhausted)
    else
      match polls[0]
      case Interrupt => Run([], 1, Crashed(UncaughtInterrupt))
      case QueryError => Run([], 1, Crashed(QueryFailure))
      case Snapshot(gpus) =>
        var free := FreeGpus(gpus, s.gpuMemThresh);
        if |free| >= s.freeGpuNum then
          if runs == [] then
            Run([], 1, RunsExhausted)
          else
            var x := Func(free, s.hostName, runs[0], failures, sent);
            if x.fault.Some? then
              Run(x.trace, 1, Crashed(x.fault.value))
            else if s.once then
              Run(x.trace, 1, Completed)
            else if s.monitorInterval < 0 then
              Run(x.trace, 1, Crashed(NegativeInterval))
            else
              var rest := Loop(s, polls[1..], runs[1..], failures, x.sent);
              Run(x.trace + [Sleep(s.monitorInterval)] + rest.trace, rest.polled + 1, rest.exit)
        else if s.monitorInterval < 0 then
          Run([], 1, Crashed(NegativeInterval))
        else
          var rest := Loop(s, polls[1..], runs, failures, sent);
          Run([Sleep(s.monitorInterval)] + rest.trace, rest.polled + 1, rest.exit)
  }

  /** `monitor`: the start notification (attempt 0), then the loop. */
  function Monitor(s: Settings, polls: seq<PollResult>, runs: seq<UntimedOutcome>, failures: set<nat>): (r: Run)
    ensures !Delivered(0, failures) ==> r == Run([], 0, Crashed(MailFailure))
    ensures Delivered(0, failures) ==> |r.trace| >= 1 && r.trace[0] == Email(StartedSubject(s.hostName), StartedBody(s.hostName))
    ensures r.polled <= |polls|
    ensures !s.once ==> r.exit != Completed
    ensures r.exit != StoppedByUser
  {
    if !Delivered(0, failures) then
      Run([], 0, Crashed(MailFailure))
    else
      var rest := Loop(s, polls, runs, failures, 1);
      Run([Email(StartedSubject(s.hostName), StartedBody(s.hostName))] + rest.trace, rest.polled, rest.exit)
  }

  // ------------------------------------------------------------- properties

  lemma {:induction false} LoopShape(s: Settings, polls: seq<PollResult>, runs: seq<UntimedOutcome>, failures: set<nat>, sent: nat)
    ensures s.once ==> NothingAfterRun(Loop(s, polls, runs, failures, sent).trace)
    ensures OnlyTopLevelSubjects(Loop(s, polls, runs, failures, sent).trace, s.hostName)
    decreases |polls|
  {
    if polls != [] && polls[0].Snapshot? {
      var free := FreeGpus(polls[0].gpus, s.gpuMemThresh);
      var sleep := Sleep(s.monitorInterval);
      if |free| >= s.freeGpuNum {
        if runs != [] {
          var x := Func(free, s.hostName, runs[0], failures, sent);
          FuncLaunchOrder(free, s.hostName, runs[0], failures, sent);
          if x.fault.None? && !s.once {
            var rest := Loop(s, polls[1..], runs[1..], failures, x.sent);
            LoopShape(s, polls[1..], runs[1..], failures, x.sent);
            OnlyTopLevelSubjectsAppend(x.trace, [sleep], s.hostName);
            OnlyTopLevelSubjectsAppend(x.trace + [sleep], rest.trace, s.hostName);
          }
        }
      } else {
        var rest := Loop(s, polls[1..], runs, failures, sent);
        LoopShape(s, polls[1..], runs, failures, sent);
        NothingAfterRunPrepend(sleep, rest.trace);
        OnlyTopLevelSubjectsAppend([sleep], rest.trace, s.hostName);
      }
    }
  }

  /**
   With `once` set (as `main` does), a session launches the script at most once and
   only sends emails afterwards.  Whatever the flags, every email carries one of
   this copy's four subjects: there is no timeout, error or stop notification.
   */
  lemma OnceExecutesAtMostOnce(s: Settings, polls: seq<PollResult>, runs: seq<UntimedOutcome>, failures: set<nat>)
    ensures var r := Monitor(s, polls, runs, failures);
      s.once ==> NothingAfterRun(r.trace) && AtMostOneRun(r.trace)
    ensures OnlyTopLevelSubjects(Monitor(s, polls, runs, failures).trace, s.hostName)
  {
    if Delivered(0, failures) {
      var start := Email(StartedSubject(s.hostName), StartedBody(s.hostName));
      var rest := Loop(s, polls, runs, failures, 1);
      LoopShape(s, polls, runs, failures, 1);
      NothingAfterRunPrepend(start, rest.trace);
      NothingAfterRunAtMostOne([start] + rest.trace);
      OnlyTopLevelSubjectsAppend([start], rest.trace, s.hostName);
    }
  }

  lemma {:induction false} LoopIgnoresTestFlag(
    s: Settings, polls: seq<PollResult>, runs: seq<UntimedOutcome>, failures: set<nat>, sent: nat)
    ensures Loop(s.(test := true), polls, runs, failures, sent) == Loop(s.(test := false), polls, runs, failures, sent)
    decreases |polls|
  {
    if polls != [] && polls[0].Snapshot? {
      var free := FreeGpus(polls[0].gpus, s.gpuMemThresh);
      if |free| >= s.freeGpuNum {
        if runs != [] {
          var x := Func(free, s.hostName, runs[0], failures, sent);
          LoopIgnoresTestFlag(s, polls[1..], runs[1..], failures, x.sent);
        }
      } else {
        LoopIgnoresTestFlag(s, polls[1..], runs, failures, sent);
      }
    }
  }

  /** The `test` flag only adds a print: every run is the same with or without it. */
  lemma TestFlagIgnored(s: Settings, polls: seq<PollResult>, runs: seq<UntimedOutcome>, failures: set<nat>)
    ensures Monitor(s.(test := true), polls, runs, failures) == Monitor(s.(test := false), polls, runs, failures)
  {
    LoopIgnoresTestFlag(s, polls, runs, failures, 1);
  }

  /** Polls that only wait contribute one pause each and nothing else. */
  lemma {:induction false} LoopSkipsWaits(
    s: Settings, pre: seq<PollResult>, rest: seq<PollResult>, runs: seq<UntimedOutcome>, failures: set<nat>, sent: nat)
    requires forall i :: 0 <= i < |pre| ==> Waits(s, pre[i])
    requires pre == [] || s.monitorInterval >= 0
    ensures var tail := Loop(s, rest, runs, failures, sent);
      Loop(s, pre + rest, runs, failures, sent)
      == Run(Sleeps(|pre|, s.monitorInterval) + tail.trace, |pre| + tail.polled, tail.exit)
    decreases |pre|
  {
    if pre == [] {
      assert pre + rest == rest;
      assert Sleeps(0, s.monitorInterval) + Loop(s, rest, runs, failures, sent).trace
          == Loop(s, rest, runs, failures, sent).trace;
    } else {
      var polls := pre + rest;
      assert polls[0] == pre[0];
      assert polls[1..] == pre[1..] + rest;
      LoopSkipsWaits(s, pre[1..], rest, runs, failures, sent);
      var tail := Loop(s, rest, runs, failures, sent);
      assert [Sleep(s.monitorInterval)] + (Sleeps(|pre| - 1, s.monitorInterval) + tail.trace)
          == Sleeps(|pre|, s.monitorInterval) + tail.trace;
    }
  }

  /**
   With `once` set, the first poll with enough free GPUs calls `func` on exactly that
   poll's free GPUs, after one pause per earlier poll, and the loop stops there.
   */
  lemma OnceStopsAfterFirstCall(
    s: Settings, pre: seq<PollResult>, poll: PollResult, post: seq<PollResult>,
    runs: seq<UntimedOutcome>, failures: set<nat>)
    requires s.once && |runs| >= 1 && Delivered(0, failures)
    requires forall i :: 0 <= i < |pre| ==> Waits(s, pre[i])
    requires pre == [] || s.monitorInterval >= 0
    requires Triggers(s, poll)
    ensures var r := Monitor(s, pre + [poll] + post, runs, failures);
      var x := Func(FreeGpus(poll.gpus, s.gpuMemThresh), s.hostName, runs[0], failures, 1);
      && r.polled == |pre| + 1
      && r.trace == [Email(StartedSubject(s.hostName), StartedBody(s.hostName))] + Sleeps(|pre|, s.monitorInterval) + x.trace
      && r.exit == (if x.fault.Some? then Crashed(x.fault.value) else Completed)
  {
    LoopFirstTrigger(s, pre, poll, post, runs, failures, 1);
    var x := Func(FreeGpus(poll.gpus, s.gpuMemThresh), s.hostName, runs[0], failures, 1);
    var waits := Sleeps(|pre|, s.monitorInterval);
    var start := Email(StartedSubject(s.hostName), StartedBody(s.hostName));
    assert [start] + (waits + x.trace) == [start] + waits + x.trace;
  }

  lemma LoopFirstTrigger(
    s: Settings, pre: seq<PollResult>, poll: PollResult, post: seq<PollResult>,
    runs: seq<UntimedOutcome>, failures: set<nat>, sent: nat)
    requires s.once && |runs| >= 1
    requires forall i :: 0 <= i < |pre| ==> Waits(s, pre[i])
    requires pre == [] || s.monitorInterval >= 0
    requires Triggers(s, poll)
    ensures var x := Func(FreeGpus(poll.gpus, s.gpuMemThresh), s.hostName, runs[0], failures, sent);
      Loop(s, pre + [poll] + post, runs, failures, sent)
      == Run(Sleeps(|pre|, s.monitorInterval) + x.trace, |pre| + 1, if x.fault.Some? then Crashed(x.fault.value) else Completed)
  {
    assert pre + [poll] + post == pre + ([poll] + post);
    LoopSkipsWaits(s, pre, [poll] + post, runs, failures, sent);
    LoopAtTrigger(s, poll, post, runs, failures, sent);
  }

  /** With `once`, a triggering snapshot calls `func` on its free GPUs and ends the loop there. */
  lemma LoopAtTrigger(
    s: Settings, poll: PollResult, post: seq<PollResult>, runs: seq<UntimedOutcome>, failures: set<nat>, sent: nat)
    requires s.once && Triggers(s, poll) && |runs| >= 1
    ensures var x := Func(FreeGpus(poll.gpus, s.gpuMemThresh), s.hostName, runs[0], failures, sent);
      Loop(s, [poll] + post, runs, failures, sent)
      == Run(x.trace, 1, if x.fault.Some? then Crashed(x.fault.value) else Completed)
  {
    assert ([poll] + post)[0] == poll;
  }

  /**
   A failed GPU query or a Ctrl-C is not caught: the process ends at that poll
   with the exception, without executing anything and without a stop email.
   */
  lemma QueryErrorOrInterruptIsFatal(
    s: Settings, pre: seq<PollResult>, poll: PollResult, post: seq<PollResult>,
    runs: seq<UntimedOutcome>, failures: set<nat>)
    requires Delivered(0, failures)
    requires forall i :: 0 <= i < |pre| ==> Waits(s, pre[i])
    requires pre == [] || s.monitorInterval >= 0
    requires !poll.Snapshot?
    ensures var r := Monitor(s, pre + [poll] + post, runs, failures);
      && r.exit == Crashed(if poll.QueryError? then QueryFailure else UncaughtInterrupt)
      && r.polled == |pre| + 1
      && r.trace == [Email(StartedSubject(s.hostName), StartedBody(s.hostName))] + Sleeps(|pre|, s.monitorInterval)
      && NeverRuns(r.trace)
  {
    assert pre + [poll] + post == pre + ([poll] + post);
    assert ([poll] + post)[0] == poll;
    LoopSkipsWaits(s, pre, [poll] + post, runs, failures, 1);
    var r := Monitor(s, pre + [poll] + post, runs, failures);
    assert r.trace == [Email(StartedSubject(s.hostName), StartedBody(s.hostName))] + Sleeps(|pre|, s.monitorInterval);
  }

  /** How many of the polls call `func`. */
  function TriggerCount(s: Settings, polls: seq<PollResult>): nat
    decreases |polls|
  {
    if polls == [] then 0
    else (if Triggers(s, polls[0]) then 1 else 0) + TriggerCount(s, polls[1..])
  }

  /** Once the script has been launched, the next non-email effect is a pause. */
  predicate SleepAfterEachRun(trace: seq<Event>) {
    forall i :: 0 <= i < |trace| && trace[i].RunScript? ==> i + 2 < |trace| && trace[i + 2].Sleep?
  }

  lemma SleepAfterEachRunAppend(a: seq<Event>, b: seq<Event>)
    requires SleepAfterEachRun(a) && SleepAfterEachRun(b)
    ensures SleepAfterEachRun(a + b)
  {
    forall i | 0 <= i < |a + b| && (a + b)[i].RunScript? ensures i + 2 < |a + b| && (a + b)[i + 2].Sleep? {
      if i >= |a| {
        assert (a + b)[i] == b[i - |a|];
        assert (a + b)[i + 2] == b[i + 2 - |a|];
      } else {
        assert (a + b)[i] == a[i];
        assert (a + b)[i + 2] == a[i + 2];
      }
    }
  }

  lemma {:induction false} LoopRepeats(
    s: Settings, polls: seq<PollResult>, runs: seq<UntimedOutcome>, sent: nat)
    requires !s.once && s.monitorInterval >= 0
    requires forall i :: 0 <= i < |polls| ==> polls[i].Snapshot?
    requires forall k :: 0 <= k < |runs| ==> runs[k].Exited?
    requires |runs| >= TriggerCount(s, polls)
    ensures var r := Loop(s, polls, runs, {}, sent);
      && r.polled == |polls|
      && r.exit == PollsExhausted
      && CountRuns(r.trace) == TriggerCount(s, polls)
      && SleepAfterEachRun(r.trace)
    decreases |polls|
  {
    if polls != [] {
      var free := FreeGpus(polls[0].gpus, s.gpuMemThresh);
      var sleep := Sleep(s.monitorInterval);
      if |free| >= s.freeGpuNum {
        var x := Func(free, s.hostName, runs[0], {}, sent);
        FuncLaunchOrder(free, s.hostName, runs[0], {}, sent);
        LoopRepeats(s, polls[1..], runs[1..], x.sent);
        var rest := Loop(s, polls[1..], runs[1..], {}, x.sent);
        var head := x.trace + [sleep];
        assert SleepAfterEachRun(head) by {
          forall i | 0 <= i < |head| && head[i].RunScript? ensures i + 2 < |head| && head[i + 2].Sleep? {
            assert i < |x.trace| ==> head[i] == x.trace[i];
          }
        }
        SleepAfterEachRunAppend(head, rest.trace);
        CountRunsAppend(x.trace, [sleep]);
        CountRunsAppend(head, rest.trace);
      } else {
        LoopRepeats(s, polls[1..], runs, sent);
        var rest := Loop(s, polls[1..], runs, {}, sent);
        SleepAfterEachRunAppend([sleep], rest.trace);
        CountRunsAppend([sleep], rest.trace);
      }
    }
  }

  /**
   With `once` unset the loop never ends by itself: given snapshots only, every
   poll is consumed, `func` runs once per poll with enough free GPUs, and each run
   is followed by a pause before the next poll.
   */
  lemma RepeatsOnEveryTrigger(s: Settings, polls: seq<PollResult>, runs: seq<UntimedOutcome>)
    requires !s.once && s.monitorInterval >= 0
    requires forall i :: 0 <= i < |polls| ==> polls[i].Snapshot?
    requires forall k :: 0 <= k < |runs| ==> runs[k].Exited?
    requires |runs| >= TriggerCount(s, polls)
    ensures var r := Monitor(s, polls, runs, {});
      && r.polled == |polls|
      && r.exit == PollsExhausted
      && CountRuns(r.trace) == TriggerCount(s, polls)
      && SleepAfterEachRun(r.trace)
  {
    LoopRepeats(s, polls, runs, 1);
    var start := Email(StartedSubject(s.hostName), StartedBody(s.hostName));
    var rest := Loop(s, polls, runs, {}, 1);
    SleepAfterEachRunAppend([start], rest.trace);
    CountRunsAppend([start], rest.trace);
  }

  /**
   `time.sleep` rejects a negative interval with an error nothing catches: the first
   poll that would pause ends the session.  Without `once` that includes the pause
   after a call of `func`.
   */
  lemma NegativeIntervalCrashesAtFirstPause(
    s: Settings, poll: PollResult, post: seq<PollResult>, runs: seq<UntimedOutcome>, failures: set<nat>)
    requires s.monitorInterval < 0 && Delivered(0, failures)
    requires Waits(s, poll) || (!s.once && Triggers(s, poll) && |runs| >= 1 && runs[0].Exited? && failures == {})
    ensures var r := Monitor(s, [poll] + post, runs, failures);
      && r.exit == Crashed(NegativeInterval)
      && r.polled == 1
      && CountRuns(r.trace) == (if Waits(s, poll) then 0 else 1)
  {
    assert ([poll] + post)[0] == poll;
    var start := Email(StartedSubject(s.hostName), StartedBody(s.hostName));
    if Waits(s, poll) {
      CountRunsAppend([start], []);
    } else {
      var free := FreeGpus(poll.gpus, s.gpuMemThresh);
      FuncLaunchOrder(free, s.hostName, runs[0], failures, 1);
      CountRunsAppend([start], Func(free, s.hostName, runs[0], failures, 1).trace);
    }
  }

  // -------------------------------------------------------------------- main

  /** The command line of `main`; it never sets `once`, so the default `True` applies. */
  datatype Args = Args(freeGpuNum: int, gpuMemThresh: int, monitorInterval: int, hostName: string, test: bool)

  function EntrySettings(a: Args): Settings {
    Settings(a.freeGpuNum, a.gpuMemThresh, a.monitorInterval, a.hostName, true, a.test)
  }

  /** `main`: monitor in single-shot mode, whatever the flags. */
  function Entry(a: Args, polls: seq<PollResult>, runs: seq<UntimedOutcome>, failures: set<nat>): (r: Run)
    ensures AtMostOneRun(r.trace) && NothingAfterRun(r.trace)
    ensures r.exit != StoppedByUser
  {
    OnceExecutesAtMostOnce(EntrySettings(a), polls, runs, failures);
    Monitor(EntrySettings(a), polls, runs, failures)
  }
}
